=== FILE: README.md ===
# Length-prefixed message framing and the TCP client of grahsp/Server

This project models, in Dafny, the transport core of the `Server` repository:

- `NetworkTransceiver` (Server/Network/NetworkTransceiver.cs): a message is
  sent as one frame, a 4-byte little-endian `int` length header followed by the UTF-8 bytes of the
  message; the receive side reads the header, range-checks it against
  `MaxPayloadSize` (1 MiB) and reads the payload; `MergeBuffers` concatenates
  byte arrays; `ValidatePayloadSize` is the range check. The second
  `NetworkTransceiver` (Server/NetworkTransceiver.cs) holds only a private copy
  of `MergeBuffers` with the same body.
- `Client`: an ID checked at construction, a connection state, `LastActive`,
  four events, and the operations `ConnectAsync`, `SendAsync`, `ListenAsync`
  and `Disconnect`.

Modules, in dependency order:

| module | file | contents |
|---|---|---|
| `Types` | `types.dfy` | bytes, `int32`, the .NET exceptions as an `Error` datatype, `Result`, concatenation |
| `BitConverter` | `bitconverter.dfy` | `BitConverter.GetBytes(int)` / `ToInt32` on a little-endian machine |
| `Utf8` | `utf8.dfy` | UTF-8 encode and decode of Unicode scalar values, UTF-16 length (`string.Length`) |
| `Buffers` | `buffers.dfy` | `MergeBuffers` with its null and overflow cases |
| `Streams` | `streams.dfy` | the read side of a stream: the peer's bytes as successive chunks |
| `Transceiver` | `transceiver.dfy` | send and receive, each as written and corrected |
| `Framing` | `framing.dfy` | round trip, size limits, the repository's test cases, the two defects |
| `Connection` | `client.dfy` | the `Client` state machine |

The stream a receive reads from is a list of chunks: a read asking for `count`
bytes takes up to `count` bytes of the next chunk and leaves the rest of the
chunk for the following read; an empty chunk or the end of the list is the end
of the stream. `Data(s)` is every byte the stream will still deliver. The
general receive contracts (`ReadBytesAsWritten`, `ReceiveDataCases`,
`SendThenReceive`, `ReceiveFrames`) hold for every chunking of the same bytes;
the lemmas about particular inputs each fix one chunking.

Two defects of the code are modelled as written (members ending in
`AsWritten`: `SendDataAsyncAsWritten`, `ReadBytesAsWritten`,
`ReceiveDataAsWritten`) next to their corrected forms (`SendDataAsync`,
`ReadExactly`, `ReceiveData`). `SendAsync` and `ListenAsync` take a
`Transport` argument saying which of the two the client calls (`AsWritten`
or `Corrected`); their contracts hold for both, and the lemmas about whole
conversations (`ListenDelivers`, `ListenReceivesSent`, `ConnectThenSend`)
are about the corrected transport. See "Findings".

Behaviour of the code that a reader might not expect, which the model keeps:

- `Disconnect` raises `OnDisconnect` on every call, also when the client is
  already disconnected (`DisconnectTwice`).
- `ListenAsync` never updates `LastActive`; only a connect and a successful
  send do.
- `ConnectAsync` checks no state, and on failure it drops only the socket,
  leaving `ClientStream` as it was.
- The length header is `message.Length`, while the repository's send tests
  (NetworkTransceiver.Tests/SendDataTests.cs:20-21) expect the UTF-8 byte
  count (first finding).

A header of 0 passes `ValidatePayloadSize`, which admits 0, and is then
refused by the payload read's own check that the expected length is positive.
The effect matches the rule that empty messages never travel, so this is
stated as a property (`ZeroLengthHeader`), not as a finding.

## Model

| member | source | states |
|---|---|---|
| `Transceiver.ValidatePayloadSize` | Server/Network/NetworkTransceiver.cs:93-97 | succeeds exactly when 0 <= size <= 1048576, otherwise ArgumentOutOfRange |
| `Transceiver.Payload` | Server/Network/NetworkTransceiver.cs:14-18 | null or empty message is ArgumentNull; otherwise accepted exactly when the UTF-8 encoding fits MaxPayloadSize, the payload is that encoding, 1..MaxPayloadSize bytes, at least as long as the UTF-16 length |
| `Transceiver.Frame` | Server/Network/NetworkTransceiver.cs:20-21 | the frame is 4 + n bytes, its header decodes to n and the rest is the payload |
| `Transceiver.FrameBytes` | Server/Network/NetworkTransceiver.cs:20-21 | the frame of a payload is GetBytes of its length followed by the payload |
| `Transceiver.SendDataAsync` | Server/Network/NetworkTransceiver.cs:12-24 | a refused message writes nothing and rethrows; otherwise exactly one write, of header (byte count) plus payload, and the send succeeds exactly when the write does |
| `Transceiver.SendDataAsyncAsWritten` | Server/Network/NetworkTransceiver.cs:12-24 | as written: the single write is GetBytes(string.Length) followed by the UTF-8 bytes; a refused message writes nothing; a failing write is rethrown |
| `Transceiver.SendDataAsyncFrame` | Server/Network/NetworkTransceiver.cs:12-24 | with the corrected header, an accepted message leads to the single write of the frame of its UTF-8 bytes, and the send succeeds |
| `Transceiver.ReadBytesAsWritten` | Server/Network/NetworkTransceiver.cs:47-69 | expected length outside 1..buffer length is ArgumentOutOfRange with nothing read; otherwise succeeds exactly when the stream holds `expected` bytes, ends with IOException on an early end, and the counted total lies in [expected, expected + buffer length) |
| `Transceiver.ReadLoopAsWritten` | Server/Network/NetworkTransceiver.cs:59-68 | the while loop: counts bytes read until the total reaches `expected`; fails with the stream exhausted exactly when fewer bytes remain; the stream keeps everything after the counted bytes |
| `Transceiver.ReadLoopChunk` | Server/Network/NetworkTransceiver.cs:59-67 | as written: a read that returns chunk c overwrites the front of the buffer with c and adds |c| to the total, leaving the rest of the buffer as it was |
| `Transceiver.ReadExactly` | Server/Network/NetworkTransceiver.cs:42-45 | corrected read of an n-byte buffer: the next n bytes of the stream and the stream after them, IOException when fewer remain, ArgumentOutOfRange for n <= 0 |
| `Transceiver.Fill` | Server/Network/NetworkTransceiver.cs:59-68 | corrected loop: the bytes read so far followed by the next bytes, filled to n, or IOException with the stream exhausted |
| `Transceiver.ReceiveData` | Server/Network/NetworkTransceiver.cs:28-40 | every payload received is 1..MaxPayloadSize bytes |
| `Transceiver.ReceiveDataCases` | Server/Network/NetworkTransceiver.cs:28-40 | the four cases of a receive: short stream, header out of range (nothing after the header consumed), complete frame (payload and rest exact), payload cut short |
| `Transceiver.ReceivePayload` | Server/Network/NetworkTransceiver.cs:33-37 | the header is range-checked, then exactly n payload bytes are taken or IOException |
| `Transceiver.ReceiveDataAsWritten` | Server/Network/NetworkTransceiver.cs:28-40 | as written: a stream shorter than 4 bytes is IOException; every payload is 1..MaxPayloadSize bytes |
| `Transceiver.ReceivePayloadAsWritten` | Server/Network/NetworkTransceiver.cs:33-37 | as written: out-of-range header refused; otherwise succeeds exactly when n bytes remain, with an n-byte payload |
| `Buffers.MergeBuffers` | Server/Network/NetworkTransceiver.cs:73-91 | null array is ArgumentException; a length sum over int.MaxValue overflows; any null element is ArgumentException; otherwise the concatenation of the buffers in order |
| `Buffers.NullableLengths` | Server/Network/NetworkTransceiver.cs:78 | the Sum of the lengths with null counted as 0; without nulls, the sum of the buffer lengths |
| `Buffers.CopyFrom` | Server/NetworkTransceiver.cs:13-20 | the copy loop of the second copy of MergeBuffers, from buffer i with the prefix already copied, ends in the full concatenation or in ArgumentException at a null element |
| `Buffers.MergeTwo` | Server/Network/NetworkTransceiver.cs:21 | merging a header and a payload gives header followed by payload |
| `Buffers.MergeBuffersPlaces` | Server/Network/NetworkTransceiver.cs:81-88 | byte j of buffer i lands in the result at the sum of the lengths of the buffers before it, plus j: the running offset of the BlockCopy loop |
| `Types.ConcatAt` | Server/Network/NetworkTransceiver.cs:81-88 | in a concatenation, byte j of part i sits at the sum of the lengths of the parts before it, plus j |
| `BitConverter.GetBytes` | Server/Network/NetworkTransceiver.cs:20 | four bytes whose little-endian value is the two's-complement pattern of the int |
| `BitConverter.ToInt32` | Server/Network/NetworkTransceiver.cs:33 | the int whose two's-complement pattern is the little-endian value of the four bytes |
| `BitConverter.ToInt32GetBytes` | Server/Network/NetworkTransceiver.cs:33 | decoding an encoded header gives the value back |
| `BitConverter.GetBytesToInt32` | Server/Network/NetworkTransceiver.cs:33 | encoding a decoded header gives the same four bytes back |
| `BitConverter.GetBytesInjective` | Server/Network/NetworkTransceiver.cs:20 | two ints have the same header exactly when they are equal |
| `Utf8.Utf16Length` | Server/Network/NetworkTransceiver.cs:20 | string.Length: between one and two UTF-16 units per character |
| `Utf8.Encode` | Server/Network/NetworkTransceiver.cs:17 | GetBytes: between one and four bytes per character |
| `Utf8.Decode` | Server/Network/NetworkTransceiver.cs:39 | GetString of well-formed input: no more characters than bytes, and the empty array decodes to the empty string |
| `Utf8.EncodeChar` | Server/Network/NetworkTransceiver.cs:17 | one to four bytes per character, one exactly for ASCII, never fewer than its UTF-16 units, as many only for ASCII |
| `Utf8.DecodeFirstEncodeChar` | Server/Network/NetworkTransceiver.cs:39 | decoding the front of an encoded character returns the character and its length, whatever follows |
| `Utf8.DecodeEncode` | Server/Network/NetworkTransceiver.cs:39 | GetString of GetBytes gives the string back |
| `Utf8.EncodeCharDecodeFirst` | Server/Network/NetworkTransceiver.cs:39 | the character decoded from the front of well-formed input encodes back to exactly the bytes it was decoded from (no overlong form, no surrogate) |
| `Utf8.EncodeDecode` | Server/Network/NetworkTransceiver.cs:39 | GetBytes of GetString gives well-formed input back: the decoder accepts only canonical UTF-8 |
| `Utf8.EncodeLengthBounds` | Server/Network/NetworkTransceiver.cs:17-20 | characters <= UTF-16 length <= UTF-8 length <= 4 times the characters |
| `Utf8.Utf16LengthIsByteCountIffAscii` | Server/Network/NetworkTransceiver.cs:20 | string.Length equals the UTF-8 byte count exactly when every character is ASCII |
| `Utf8.EncodeAscii` | Server/Network/NetworkTransceiver.cs:17 | an ASCII string encodes to its own code points, one byte each |
| `Streams.Read` | Server/Network/NetworkTransceiver.cs:63 | a read returns at most the requested count, loses and reorders nothing, and returns 0 bytes exactly at the end of the stream |
| `Framing.SendThenReceive` | Server/Network/NetworkTransceiver.cs:12-40 | with the corrected transceiver, in any chunking, receiving a sent frame returns the message's bytes, which decode to the message, and leaves exactly the bytes after the frame |
| `Framing.AsciiSizeBoundary` | Server/Network/NetworkTransceiver.cs:17-18 | an ASCII message is written exactly when 1 <= length <= MaxPayloadSize, and refused before any write above it |
| `Framing.LargeMessages` | NetworkTransceiver.Tests/SendDataTests.cs:41-100 | a 1000000-character message is sent in one write; a 1048577-character one is refused with no write; the code as written does the same |
| `Framing.HelloWorldBytes` | NetworkTransceiver.Tests/SendDataTests.cs:17-18 | the UTF-8 bytes of "Hello, World!" |
| `Framing.HelloWorldSent` | NetworkTransceiver.Tests/SendDataTests.cs:12-38 | "Hello, World!" is sent as the single write 13,0,0,0 followed by its 13 bytes |
| `Framing.HelloWorldSentAsWritten` | NetworkTransceiver.Tests/SendDataTests.cs:12-38 | the code as written sends the same single write for this ASCII message |
| `Framing.HelloWorldReceived` | NetworkTransceiver.Tests/ReceiveDataTests.cs:12-35 | receiving that frame returns the message |
| `Framing.NegativeHeaderRejected` | NetworkTransceiver.Tests/ReceiveDataTests.cs:40-58 | a header of -1 is ArgumentOutOfRange, as written and corrected |
| `Framing.ClosedMidFrame` | NetworkTransceiver.Tests/ReceiveDataTests.cs:60-95 | header 4 then two bytes then the end is IOException, as written and corrected |
| `Framing.ZeroLengthHeader` | Server/Network/NetworkTransceiver.cs:33-37 | a zero header passes ValidatePayloadSize, the payload read refuses it and nothing after the header is consumed |
| `Framing.AsWrittenSingleReads` | Server/Network/NetworkTransceiver.cs:59-68 | the read loop as written is correct when header and payload each arrive in one read |
| `Framing.CharCountHeaderIffAscii` | Server/Network/NetworkTransceiver.cs:20 | the as-written send equals the corrected one exactly when the message is ASCII |
| `Framing.CharCountHeaderCounterexample` | Server/Network/NetworkTransceiver.cs:20 | "é" is written as header 1 and payload C3 A9 |
| `Framing.CharCountHeaderReceived` | Server/Network/NetworkTransceiver.cs:28-39 | receiving that frame takes the payload C3 and leaves A9 where the next header is expected |
| `Framing.CharCountHeaderUndecodable` | Server/Network/NetworkTransceiver.cs:39 | the payload C3 received from that frame is not valid UTF-8 |
| `Framing.SplitHeaderCounterexample` | Server/Network/NetworkTransceiver.cs:63 | a header arriving as 2,0 then 0,0 is read as 0,0,0,0 and the receive fails with ArgumentOutOfRange |
| `Framing.SplitHeaderCorrected` | Server/Network/NetworkTransceiver.cs:59-68 | the corrected receive reads that stream's header 2 and payload |
| `Framing.OverReadCounterexample` | Server/Network/NetworkTransceiver.cs:60-67 | header read as 2,0 then 0,0,72,105 counts 6 bytes, decodes 0x69480000 and the receive fails |
| `Framing.OverReadCorrected` | Server/Network/NetworkTransceiver.cs:59-68 | the corrected receive reads that stream's payload 72,105 |
| `Connection.NewClient` | Server/Client.cs:27-33 | accepted exactly when the ID is non-null, has a non-white-space character and at least 4 UTF-16 units; starts disconnected with no stream and no events |
| `Connection.IdExamples` | Server/Client.cs:29-30 | an all-space ID is refused at any length; two astral characters (4 UTF-16 units) are accepted |
| `Connection.IsConnected` | Server/Client.cs:19 | false without a TcpClient, otherwise the TcpClient's Connected value |
| `Connection.IsNullOrWhiteSpace` | Server/Client.cs:29 | true exactly for null or a string without a non-white-space character, so also for "" |
| `Connection.TrimStart` | Server/Client.cs:29 | removes exactly the leading white space: what it drops is all white space, and what it keeps is a suffix that is empty or starts with a non-white-space character |
| `Connection.TrimEnd` | Server/Client.cs:29 | removes exactly the trailing white space: what it drops is all white space, and what it keeps is a prefix that is empty or ends with a non-white-space character |
| `Connection.TrimStartEmpty` | Server/Client.cs:29 | TrimStart gives the empty string exactly when every character is white space |
| `Connection.TrimEndEmpty` | Server/Client.cs:29 | TrimEnd gives the empty string exactly when every character is white space |
| `Connection.IsNullOrWhiteSpaceTrim` | Server/Client.cs:29 | IsNullOrWhiteSpace(v) holds exactly when v is null or empty or v.Trim() is empty, the equivalence .NET documents |
| `Connection.ConnectAsync` | Server/Client.cs:35-61 | success connects, opens the stream, sets LastActive and raises OnConnect; any failure drops the socket, keeps the stream field and rethrows wrapped in InvalidOperationException |
| `Connection.Disconnect` | Server/Client.cs:129-150 | drops socket and stream and raises OnDisconnect, in any state; ID, LastActive and writes unchanged |
| `Connection.SendAsync` | Server/Client.cs:63-80 | for either transceiver: refused with the client unchanged when not connected or without a stream; otherwise the transceiver's writes are issued, success sets LastActive and raises OnDataSent, any failure drops socket and stream, raises OnDisconnect and rethrows the transceiver's exception (refused message or failing write) wrapped in InvalidOperationException |
| `Connection.ReceiveLoop` | Server/Client.cs:89-96 | at most one payload per round, and the loop ends early exactly when a receive fails |
| `Connection.Announce` | Server/Client.cs:94 | one OnDataReceived per payload, in order |
| `Connection.ListenAsync` | Server/Client.cs:82-102 | for either transceiver: refused when not connected or without a stream; otherwise raises OnDataReceived for every payload received, drops socket and stream exactly when a receive failed, never rethrows, leaves LastActive alone |
| `Connection.ReceivedCarriable` | Server/Client.cs:91-92 | with a receive whose payloads are 1..MaxPayloadSize bytes, every payload the loop gets is |
| `Connection.ListenPayloadsValid` | Server/Client.cs:92 | for either transceiver, every payload ListenAsync hands on is 1..MaxPayloadSize bytes, so the empty-data skip never fires |
| `Connection.ReceiveDataReadsFrames` | Server/Network/NetworkTransceiver.cs:28-40 | the corrected receive takes a whole frame off the stream's front and fails on an exhausted stream |
| `Connection.FrameAtFront` | Server/Network/NetworkTransceiver.cs:20-21 | a stream starting with a frame has the payload length as header, the payload after it and the rest after the frame |
| `Connection.TakeFrame` | Server/Client.cs:89-94 | the first loop round on a stream starting with a frame gets that payload and continues after the frame |
| `Connection.ReceiveFrames` | Server/Client.cs:89-96 | in any chunking, the loop over back-to-back frames yields their payloads in order, stops after them with the rest of the stream intact, or fails at the end of the stream when it keeps going |
| `Connection.ReceiveExhausted` | Server/Client.cs:89-96 | on a stream with nothing left, the loop over a frame-reading receive yields no payload |
| `Connection.ListenDelivers` | Server/Client.cs:82-102 | with the corrected transceiver, listening on back-to-back frames raises one OnDataReceived per payload in order, stays connected when cancelled right after the last frame, disconnects at the end of the stream |
| `Connection.FramesOfMessages` | Server/Client.cs:70 | sending messages one by one puts the frames of their encodings on the wire |
| `Connection.Encodings` | Server/Client.cs:70 | the UTF-8 encodings of the messages, one per message, in order |
| `Connection.ListenReceivesSent` | Server/Client.cs:82-102 | with the corrected transceiver on both ends, a listening client receives exactly the bytes of each message the peer sent, in order |
| `Connection.FailedSendDisconnects` | Server/Client.cs:75-79 | for either transceiver, after a failed send the next send is refused as not connected |
| `Connection.EmptyMessageDisconnects` | Server/Client.cs:68-79 | for either transceiver, sending "" writes nothing, disconnects and rethrows ArgumentNull wrapped |
| `Connection.ConnectThenSend` | Server/Client.cs:45-73 | with the corrected transceiver, connect then send writes exactly the message's frame and raises OnConnect then OnDataSent |
| `Connection.DisconnectTwice` | Server/Client.cs:140-149 | a second Disconnect raises OnDisconnect again and changes nothing else |
| `Connection.FailedConnectRefuses` | Server/Client.cs:51-66 | for either transceiver, after a failed connect, send and listen are refused as not connected |
| `Connection.SendNonAscii` | Server/Client.cs:63-73 | a client sending "é" puts header 1 and bytes C3 A9 on the wire with the transceiver as written, and the two-byte frame with header 2 with the corrected one |
| `Connection.ListenSplitHeaderAsWritten` | Server/Client.cs:82-102 | as written, a header arriving as 2,0 then 0,0 makes the listening client disconnect without raising OnDataReceived |
| `Connection.ListenSplitHeaderCorrected` | Server/Client.cs:82-102 | corrected, the same stream makes the client raise OnDataReceived with 72,105 and stay connected |

## Left out

- Asynchrony, `await`, `CancellationToken`: operations are functions of the client state. The listen loop's cancellation is a number of rounds after which the token is seen set.
- `Task.Delay(50)` in the listen loop and the 10-second connect timeout: timing is not modelled; a timeout is one of the connect outcomes.
- `TcpClient`, `NetworkStream`, `NetworkStreamWrapper` and `INetworkStream`: the connect outcome and the write outcome are parameters, and the read side is the chunk list of `Streams`.
- `SetLastActive` reads `DateTime.Now.TimeOfDay`; the time is a parameter `now`.
- `Console.WriteLine` in `Disconnect`, and exceptions thrown by `Close`, which the code swallows; `Dispose` (Server/Client.cs:142-143) runs outside that handler and is assumed not to throw, so `Disconnect` always clears both fields and raises `OnDisconnect`.
- `Dispose`: it cancels the token source, calls `Disconnect` and disposes the token source; its effect on the client is `Disconnect`, and the token is the rounds parameter.
- `Encoding.UTF8.GetString` on invalid input substitutes U+FFFD; the model's `Decode` returns `None` instead, and `OnDataReceived` events carry the payload bytes rather than the decoded string.
- Lone UTF-16 surrogates: Dafny characters are Unicode scalar values, so `GetBytes`' replacement of unpaired surrogates is not modelled.
- The null checks on `stream` and `dataBuffer` in `ReadBytes`: both callers pass a stream they were given and a buffer they just allocated.
- The `continue` on empty data in `ListenAsync` (Server/Client.cs:92): a successful receive never yields an empty payload with either transceiver (`Connection.ListenPayloadsValid`), so the branch cannot fire and the model has no such step.
- Overflow of `totalBytesRead` in `ReadBytes`: the total stays below expected plus buffer length, far from `int.MaxValue`.
- `BitConverter` on a big-endian machine: the model fixes little-endian order.
- Event subscription: every raised event is recorded, whether or not a handler is attached.
- `ListenAsync` passes an `INetworkStream` to `ReceiveDataAsync(NetworkStream)`; the model reads from the client's stream as if the types matched.
- Transceiver.ReceiveDataAsWritten: its contract states only the short-stream error and the payload bounds; its behaviour on split reads is given by `SplitHeaderCounterexample`, `OverReadCounterexample` and `AsWrittenSingleReads`.
- Transceiver.ReceiveData: its contract states only the payload bounds; the full case split is the lemma `ReceiveDataCases`.

## Findings

| source | as written | input that shows it | evidently intended | confidence | as-written member | corrected member |
|---|---|---|---|---|---|---|
| Server/Network/NetworkTransceiver.cs:20 | the header is `BitConverter.GetBytes(message.Length)`, the number of UTF-16 code units | the message "é": header 1, payload C3 A9; the receiver takes C3 and leaves A9 as the start of the next header | the header is `bytes.Length`, the UTF-8 byte count, as the repository's own send tests expect | high; not executed | `Transceiver.SendDataAsyncAsWritten`, `Framing.CharCountHeaderCounterexample`, `Framing.CharCountHeaderReceived`, `Framing.CharCountHeaderUndecodable`, `Connection.SendNonAscii` | `Transceiver.SendDataAsync`, `Framing.SendThenReceive`, `Connection.ListenReceivesSent` |
| Server/Network/NetworkTransceiver.cs:63 | every `ReadAsync` reads into the whole buffer from offset 0, so a later read overwrites an earlier one and may read past the expected length | header arriving in reads 2,0 then 0,0: decoded as 0 and refused; reads 2,0 then 0,0,72,105: 6 bytes counted, header 0x69480000 refused | each read fills `dataBuffer` from offset `totalBytesRead` and asks for at most the bytes still missing | high; not executed | `Transceiver.ReadBytesAsWritten`, `Framing.SplitHeaderCounterexample`, `Framing.OverReadCounterexample`, `Connection.ListenSplitHeaderAsWritten` | `Transceiver.ReadExactly`, `Framing.SplitHeaderCorrected`, `Framing.OverReadCorrected`, `Connection.ListenSplitHeaderCorrected` |

=== FILE: bitconverter.dfy ===
/** BitConverter.GetBytes(int) and BitConverter.ToInt32 on a little-endian
    machine: a C# int as four bytes, least significant first, two's complement. */
module BitConverter {
  import opened Types

  const TwoTo32: int := 0x1_0000_0000

  /** The two's-complement bit pattern of v as an unsigned 32-bit value. */
  function Unsigned(v: int32): (u: nat)
    ensures u < TwoTo32
    ensures v >= 0 ==> u == v
    ensures v < 0 ==> u == v + TwoTo32
  {
    if v < 0 then v + TwoTo32 else v
  }

  /** The little-endian value of four bytes. */
  function LittleEndian(b: Bytes): nat
    requires |b| == 4
  {
    var b0: int, b1: int, b2: int, b3: int := b[0], b[1], b[2], b[3];
    b0 + 0x100 * (b1 + 0x100 * (b2 + 0x100 * b3))
  }

  function GetBytes(v: int32): (r: Bytes)
    ensures |r| == 4
    ensures LittleEndian(r) == Unsigned(v)
  {
    var u := Unsigned(v);
    var r := [u % 0x100, u / 0x100 % 0x100, u / 0x1_0000 % 0x100, u / 0x100_0000];
    DigitsRecompose(u);
    r
  }

  function ToInt32(b: Bytes): (v: int32)
    requires |b| == 4
    ensures Unsigned(v) == LittleEndian(b)
  {
    var u := LittleEndian(b);
    if u >= 0x8000_0000 then u - TwoTo32 else u
  }

  lemma DigitsRecompose(u: nat)
    requires u < TwoTo32
    ensures u / 0x100_0000 < 0x100
    ensures u == u % 0x100 + 0x100 * (u / 0x100 % 0x100)
                 + 0x1_0000 * (u / 0x1_0000 % 0x100) + 0x100_0000 * (u / 0x100_0000)
  {
    var q1 := u / 0x100;
    var q2 := q1 / 0x100;
    var q3 := q2 / 0x100;
    assert u == u % 0x100 + 0x100 * q1;
    assert q1 == q1 % 0x100 + 0x100 * q2;
    assert q2 == q2 % 0x100 + 0x100 * q3;
    assert q2 == u / 0x1_0000;
    assert q3 == u / 0x100_0000;
  }

  /** Splitting off the low byte of d + 256 * q recovers d and q. */
  lemma SplitLowByte(d: int, q: int)
    requires 0 <= d < 0x100
    ensures (d + 0x100 * q) % 0x100 == d
    ensures (d + 0x100 * q) / 0x100 == q
  {
  }

  /** Four little-endian bytes are determined by their value. */
  lemma LittleEndianInjective(a: Bytes, b: Bytes)
    requires |a| == 4 && |b| == 4
    requires LittleEndian(a) == LittleEndian(b)
    ensures a == b
  {
    var a0: int, a1: int, a2: int, a3: int := a[0], a[1], a[2], a[3];
    var b0: int, b1: int, b2: int, b3: int := b[0], b[1], b[2], b[3];
    SplitLowByte(a0, a1 + 0x100 * (a2 + 0x100 * a3));
    SplitLowByte(b0, b1 + 0x100 * (b2 + 0x100 * b3));
    SplitLowByte(a1, a2 + 0x100 * a3);
    SplitLowByte(b1, b2 + 0x100 * b3);
    SplitLowByte(a2, a3);
    SplitLowByte(b2, b3);
    assert a0 == b0 && a1 == b1 && a2 == b2 && a3 == b3;
  }

  /** Decoding an encoded int32 gives it back. */
  lemma ToInt32GetBytes(v: int32)
    ensures ToInt32(GetBytes(v)) == v
  {
  }

  /** Different values have different headers. */
  lemma GetBytesInjective(a: int32, b: int32)
    ensures GetBytes(a) == GetBytes(b) <==> a == b
  {
    if GetBytes(a) == GetBytes(b) {
      ToInt32GetBytes(a);
      ToInt32GetBytes(b);
    }
  }

  /** Encoding a decoded header gives back the same four bytes. */
  lemma GetBytesToInt32(b: Bytes)
    requires |b| == 4
    ensures GetBytes(ToInt32(b)) == b
  {
    LittleEndianInjective(GetBytes(ToInt32(b)), b);
  }

  /** BitConverter.GetBytes(13) is the header of the 13-byte "Hello, World!" frame. */
  lemma GetBytesThirteen()
    ensures GetBytes(13) == [13, 0, 0, 0]
  {
  }

  /** BitConverter.GetBytes(-1), the header of the rejected-length receive case. */
  lemma GetBytesMinusOne()
    ensures GetBytes(-1) == [0xFF, 0xFF, 0xFF, 0xFF]
    ensures ToInt32([0xFF, 0xFF, 0xFF, 0xFF]) == -1
  {
  }
}

=== FILE: buffers.dfy ===
/** NetworkTransceiver.MergeBuffers: both copies in the repository (the public
    one in Server/Network and the private one in Server) have the same body. A
    C# null buffer array or null element is None. */
module Buffers {
  import opened Types

  predicate NoNulls(buffers: seq<Option<Bytes>>)
  {
    forall i :: 0 <= i < |buffers| ==> buffers[i].Some?
  }

  function Values(buffers: seq<Option<Bytes>>): (r: seq<Bytes>)
    requires NoNulls(buffers)
    ensures |r| == |buffers|
    ensures forall i :: 0 <= i < |buffers| ==> buffers[i] == Some(r[i])
  {
    seq(|buffers|, i requires 0 <= i < |buffers| && NoNulls(buffers) => buffers[i].value)
  }

  /** buffers.Sum(buffer => buffer?.Length ?? 0): a null element counts as 0. */
  function NullableLengths(buffers: seq<Option<Bytes>>): (n: nat)
    ensures NoNulls(buffers) ==> n == SumLengths(Values(buffers))
  {
    if buffers == [] then 0
    else
      var init, last := buffers[..|buffers| - 1], buffers[|buffers| - 1];
      assert NoNulls(buffers) ==> NoNulls(init) && Values(buffers)[..|init|] == Values(init);
      NullableLengths(init) + (if last.Some? then |last.value| else 0)
  }

  lemma {:induction false} NullableLengthsPrefix(buffers: seq<Option<Bytes>>, i: nat)
    requires i <= |buffers|
    ensures NullableLengths(buffers[..i]) <= NullableLengths(buffers)
    decreases |buffers|
  {
    if i < |buffers| {
      var init := buffers[..|buffers| - 1];
      assert buffers[..i] == init[..i];
      NullableLengthsPrefix(init, i);
    } else {
      assert buffers[..i] == buffers;
    }
  }

  /** NetworkTransceiver.MergeBuffers: the checked Sum of the lengths first,
      then a zero-filled result of that length into which each buffer is
      copied at the running offset; a null element throws when the loop
      reaches it. */
  function MergeBuffers(buffers: Option<seq<Option<Bytes>>>): (r: Result<Bytes>)
    ensures buffers.None? ==> r == Err(Argument)
    ensures buffers.Some? && NullableLengths(buffers.value) > Int32Max ==> r == Err(Overflow)
    ensures buffers.Some? && NullableLengths(buffers.value) <= Int32Max ==>
              (!NoNulls(buffers.value) ==> r == Err(Argument))
    ensures buffers.Some? && NullableLengths(buffers.value) <= Int32Max ==>
              (NoNulls(buffers.value) ==> r == Ok(Concat(Values(buffers.value))))
    ensures r.Ok? ==> buffers.Some? && |r.value| == NullableLengths(buffers.value)
  {
    if buffers.None? then Err(Argument)
    else
      var total := NullableLengths(buffers.value);
      if total > Int32Max then Err(Overflow)
      else
        assert buffers.value[..0] == [];
        CopyFrom(buffers.value, 0, 0, Zeros(total))
  }

  /** The copy loop of MergeBuffers from buffer i on, with result[..offset]
      already holding the buffers before i. */
  function CopyFrom(buffers: seq<Option<Bytes>>, i: nat, offset: nat, result: Bytes): (r: Result<Bytes>)
    requires i <= |buffers| && NoNulls(buffers[..i])
    requires offset == NullableLengths(buffers[..i]) && |result| == NullableLengths(buffers) && offset <= |result|
    requires result[..offset] == Concat(Values(buffers[..i]))
    ensures !NoNulls(buffers) ==> r == Err(Argument)
    ensures NoNulls(buffers) ==> r == Ok(Concat(Values(buffers)))
    ensures r.Ok? ==> |r.value| == |result|
    decreases |buffers| - i
  {
    if i == |buffers| then
      assert buffers[..i] == buffers;
      assert result[..offset] == result;
      Ok(result)
    else if buffers[i].None? then Err(Argument)
    else
      var b := buffers[i].value;
      assert buffers[..i + 1][..i] == buffers[..i];
      NullableLengthsPrefix(buffers, i + 1);
      assert Values(buffers[..i + 1])[..i] == Values(buffers[..i]);
      CopyFrom(buffers, i + 1, offset + |b|, result[..offset] + b + result[offset + |b|..])
  }

  /** Merging a header and a payload puts the header first and the payload after it. */
  lemma MergeTwo(header: Bytes, payload: Bytes)
    requires |header| + |payload| <= Int32Max
    ensures MergeBuffers(Some([Some(header), Some(payload)])) == Ok(header + payload)
  {
    var bufs: seq<Option<Bytes>> := [Some(header), Some(payload)];
    var one: seq<Option<Bytes>> := [Some(header)];
    assert bufs[..1] == one && one[..0] == [];
    assert NullableLengths(one[..0]) == 0;
    assert NullableLengths(one) == |header|;
    assert NullableLengths(bufs) == |header| + |payload|;
    var vs: seq<Bytes> := Values(bufs);
    var first: seq<Bytes> := [header];
    assert vs == [header, payload];
    assert vs[..1] == first && first[..0] == [];
    assert Concat(first) == header;
    assert Concat(vs) == header + payload;
  }

  /** Byte j of buffer i lands in the merged array at the sum of the lengths
      of the buffers before it, plus j: the running offset of the copy loop. */
  lemma MergeBuffersPlaces(buffers: seq<Option<Bytes>>, i: nat, j: nat)
    requires NoNulls(buffers) && NullableLengths(buffers) <= Int32Max
    requires i < |buffers| && j < |buffers[i].value|
    ensures var r := MergeBuffers(Some(buffers));
            var offset := SumLengths(Values(buffers)[..i]);
            r.Ok? && offset + j < |r.value| && r.value[offset + j] == buffers[i].value[j]
  {
    ConcatAt(Values(buffers), i, j);
  }
}

=== FILE: client.dfy ===
/** Server.Client: one TCP peer with an ID, a connection state, the time of
    its last activity and four events. Every public operation is a function
    from the client's state to its next state and the operation's outcome;
    the events the client raises are recorded in order, and so are the
    buffers it hands to its stream's write.

    What the C# code takes from its surroundings is a parameter here: the
    outcome of the TCP connect, the outcome of the stream write, the bytes
    the peer sends, the time of day, and how many loop rounds pass before
    the listen loop sees its cancellation token set. */
module Connection {
  import opened Types
  import opened Utf8
  import opened Streams
  import opened Transceiver
  import Framing

  /** The events: OnConnect, OnDisconnect, OnDataReceived, OnDataSent.
      OnDataReceived carries the received payload bytes. */
  datatype Event = Connected | Disconnected | DataReceived(payload: Bytes) | DataSent

  /** socket is the TcpClient field: None when it is null, otherwise whether
      its Connected property is set. hasStream says whether ClientStream is
      non-null. lastActive is LastActive as a time of day. */
  datatype Client = Client(
    id: string,
    socket: Option<bool>,
    hasStream: bool,
    lastActive: nat,
    events: seq<Event>,
    wire: seq<Bytes>)

  /** The outcome of an operation and the client's state after it. */
  datatype Call<+T> = Call(client: Client, outcome: Result<T>)

  /** The NetworkTransceiver the client calls: the code as written, or the
      one with both defects corrected (see Transceiver). */
  datatype Transport = AsWritten | Corrected

  /** SendDataAsync of the given transport. */
  function Send(t: Transport, data: Option<string>, sink: WriteOutcome): Sent
  {
    match t
    case AsWritten => SendDataAsyncAsWritten(data, sink)
    case Corrected => SendDataAsync(data, sink)
  }

  /** How the TCP connect ends: connected before the timeout, or with an
      exception (a SocketException, the TimeoutException of the timeout, or
      anything else thrown while connecting or opening the stream). */
  datatype ConnectAttempt = Established | ConnectThrows(cause: Error)

  /** What the receive loop of ListenAsync got: the payloads in order,
      whether it ended on a failed receive, and the stream after it. */
  datatype Received = Received(payloads: seq<Bytes>, failed: bool, rest: Stream)

  /** The outcome of ListenAsync, the client's state after it and the stream
      after it. */
  datatype Listened = Listened(client: Client, outcome: Result<()>, rest: Stream)

  /** IsConnected: the TcpClient's Connected property, false when there is
      no TcpClient. */
  function IsConnected(c: Client): (r: bool)
    ensures c.socket.None? ==> !r
    ensures c.socket.Some? ==> (r <==> c.socket.value)
  {
    c.socket == Some(true)
  }

  /** char.IsWhiteSpace: the Unicode space separators, the line and
      paragraph separators, and the controls U+0009 to U+000D and U+0085. */
  predicate IsWhiteSpace(ch: char)
  {
    ('\U{9}' <= ch <= '\U{D}') || ch == ' ' || ch == '\U{85}' || ch == '\U{A0}'
    || ch == '\U{1680}' || ('\U{2000}' <= ch <= '\U{200A}') || ch == '\U{2028}'
    || ch == '\U{2029}' || ch == '\U{202F}' || ch == '\U{205F}' || ch == '\U{3000}'
  }

  /** string.IsNullOrWhiteSpace: null, or no character that is not white
      space; the empty string is one. */
  function IsNullOrWhiteSpace(s: Option<string>): (r: bool)
    ensures r <==> s.None? || !(exists i :: 0 <= i < |s.value| && !IsWhiteSpace(s.value[i]))
    ensures s == Some("") ==> r
  {
    s.None? || forall i :: 0 <= i < |s.value| ==> IsWhiteSpace(s.value[i])
  }

  /** string.TrimStart(): the string without its leading white space. */
  function TrimStart(s: string): (r: string)
    ensures |r| <= |s| && r == s[|s| - |r|..]
    ensures forall i :: 0 <= i < |s| - |r| ==> IsWhiteSpace(s[i])
    ensures r != [] ==> !IsWhiteSpace(r[0])
    decreases |s|
  {
    if s != [] && IsWhiteSpace(s[0]) then TrimStart(s[1..]) else s
  }

  /** string.TrimEnd(): the string without its trailing white space. */
  function TrimEnd(s: string): (r: string)
    ensures |r| <= |s| && r == s[..|r|]
    ensures forall i :: |r| <= i < |s| ==> IsWhiteSpace(s[i])
    ensures r != [] ==> !IsWhiteSpace(r[|r| - 1])
    decreases |s|
  {
    if s != [] && IsWhiteSpace(s[|s| - 1]) then TrimEnd(s[..|s| - 1]) else s
  }

  /** string.Trim(). */
  function Trim(s: string): string
  {
    TrimEnd(TrimStart(s))
  }

  lemma TrimStartEmpty(s: string)
    ensures TrimStart(s) == [] <==> forall i :: 0 <= i < |s| ==> IsWhiteSpace(s[i])
  {
  }

  lemma TrimEndEmpty(s: string)
    ensures TrimEnd(s) == [] <==> forall i :: 0 <= i < |s| ==> IsWhiteSpace(s[i])
  {
  }

  /** The documented equivalence: string.IsNullOrWhiteSpace(v) is
      string.IsNullOrEmpty(v) || v.Trim().Length == 0. */
  lemma IsNullOrWhiteSpaceTrim(s: Option<string>)
    ensures IsNullOrWhiteSpace(s) <==> s.None? || s.value == [] || |Trim(s.value)| == 0
  {
    if s.Some? {
      TrimStartEmpty(s.value);
      TrimEndEmpty(TrimStart(s.value));
    }
  }

  /** The Client constructor: the ID must hold a non-white-space character
      and at least four UTF-16 code units; the client starts without a
      connection, without a stream, with LastActive zero and no events. */
  function NewClient(id: Option<string>): (r: Result<Client>)
    ensures r.Ok? <==>
              id.Some? && (exists i :: 0 <= i < |id.value| && !IsWhiteSpace(id.value[i]))
              && Utf16Length(id.value) >= 4
    ensures r.Err? ==> r.error == Argument
    ensures r.Ok? ==> r.value.id == id.value && !IsConnected(r.value) && !r.value.hasStream
    ensures r.Ok? ==> r.value.events == [] && r.value.wire == [] && r.value.lastActive == 0
  {
    if IsNullOrWhiteSpace(id) || Utf16Length(id.value) < 4 then Err(Argument)
    else Ok(Client(id.value, None, false, 0, [], []))
  }

  /** ConnectAsync: on success the client holds a connected socket and a
      stream, LastActive is now and OnConnect is raised; on failure the
      socket is dropped, the stream field keeps whatever it held, and the
      cause is rethrown wrapped in InvalidOperationException. */
  function ConnectAsync(c: Client, attempt: ConnectAttempt, now: nat): (r: Call<()>)
    ensures r.client.id == c.id && r.client.wire == c.wire
    ensures r.outcome.Ok? <==> attempt == Established
    ensures attempt == Established ==>
              IsConnected(r.client) && r.client.hasStream && r.client.lastActive == now
              && r.client.events == c.events + [Connected]
    ensures attempt.ConnectThrows? ==>
              r.outcome == Err(InvalidOperation(ConnectFailed(attempt.cause)))
              && r.client == c.(socket := None)
  {
    match attempt
    case Established =>
      Call(c.(socket := Some(true), hasStream := true, lastActive := now,
              events := c.events + [Connected]), Ok(()))
    case ConnectThrows(cause) =>
      Call(c.(socket := None), Err(InvalidOperation(ConnectFailed(cause))))
  }

  /** Disconnect: closes and drops the socket and the stream, and raises
      OnDisconnect, whatever state the client is in. */
  function Disconnect(c: Client): (r: Client)
    ensures !IsConnected(r) && r.socket.None? && !r.hasStream
    ensures r.id == c.id && r.lastActive == c.lastActive && r.wire == c.wire
    ensures r.events == c.events + [Disconnected]
  {
    c.(socket := None, hasStream := false, events := c.events + [Disconnected])
  }

  /** SendAsync: refused without a connection or a stream, with the client
      unchanged. Otherwise the message goes through SendDataAsync; on success
      LastActive is now and OnDataSent is raised; any exception, including a
      refused message, disconnects the client and is rethrown wrapped. */
  function SendAsync(c: Client, t: Transport, data: Option<string>, sink: WriteOutcome, now: nat): (r: Call<()>)
    ensures !IsConnected(c) ==> r == Call(c, Err(InvalidOperation(NotConnected)))
    ensures IsConnected(c) && !c.hasStream ==>
              r == Call(c, Err(InvalidOperation(StreamNotInitialized)))
    ensures IsConnected(c) && c.hasStream ==>
              r.client.wire == c.wire + Send(t, data, sink).writes && r.client.id == c.id
    ensures IsConnected(c) && c.hasStream ==>
              (r.outcome.Ok? <==> Payload(data).Ok? && sink == Written)
    ensures IsConnected(c) && c.hasStream && r.outcome.Ok? ==>
              IsConnected(r.client) && r.client.hasStream && r.client.lastActive == now
              && r.client.events == c.events + [DataSent]
    ensures IsConnected(c) && c.hasStream && r.outcome.Err? ==>
              !IsConnected(r.client) && r.client.socket.None? && !r.client.hasStream
              && r.client.lastActive == c.lastActive
              && r.client.events == c.events + [Disconnected]
              && r.outcome == Err(InvalidOperation(SendFailed(
                                if Payload(data).Err? then Payload(data).error else sink.error)))
  {
    if !IsConnected(c) then Call(c, Err(InvalidOperation(NotConnected)))
    else if !c.hasStream then Call(c, Err(InvalidOperation(StreamNotInitialized)))
    else
      var sent := Send(t, data, sink);
      var c' := c.(wire := c.wire + sent.writes);
      match sent.outcome
      case Ok(_) =>
        Call(c'.(lastActive := now, events := c'.events + [DataSent]), Ok(()))
      case Err(e) =>
        Call(Disconnect(c'), Err(InvalidOperation(SendFailed(e))))
  }

  /** The OnDataReceived events for the payloads ps, in order. */
  function Announce(ps: seq<Bytes>): (d: seq<Event>)
    ensures |d| == |ps|
    ensures forall i :: 0 <= i < |ps| ==> d[i] == DataReceived(ps[i])
  {
    if ps == [] then [] else [DataReceived(ps[0])] + Announce(ps[1..])
  }

  /** A receive operation: what one call makes of the stream. ListenAsync
      is given ReceiveData; the loop itself only needs this shape. */
  type Receiver = Stream -> Step<Bytes>

  /** ReceiveDataAsync of the given transport. */
  function Receive(t: Transport): Receiver
  {
    match t
    case AsWritten => ReceiveDataAsWritten
    case Corrected => ReceiveData
  }

  /** The receives of the while loop of ListenAsync, with the rounds left
      before the token is seen set: the loop ends early exactly when a
      receive fails. */
  function ReceiveLoop(recv: Receiver, input: Stream, rounds: nat): (r: Received)
    ensures |r.payloads| <= rounds
    ensures r.failed <==> |r.payloads| < rounds
    decreases rounds
  {
    if rounds == 0 then Received([], false, input)
    else
      var step := recv(input);
      if step.outcome.Err? then Received([], true, step.rest)
      else
        var r := ReceiveLoop(recv, step.rest, rounds - 1);
        Received([step.outcome.value] + r.payloads, r.failed, r.rest)
  }

  /** ListenAsync: refused without a connection or a stream. Otherwise it
      receives frames until the token is seen set, raising OnDataReceived for
      each payload; a failed receive disconnects the client and ends the loop
      without rethrowing. LastActive is not updated. The loop's skip of an
      empty message is left out: a successful receive never yields one
      (ListenPayloadsValid). */
  function ListenAsync(c: Client, t: Transport, input: Stream, rounds: nat): (r: Listened)
    ensures !IsConnected(c) ==> r == Listened(c, Err(InvalidOperation(NotConnected)), input)
    ensures IsConnected(c) && !c.hasStream ==>
              r == Listened(c, Err(InvalidOperation(StreamNotInitialized)), input)
    ensures r.client.id == c.id && r.client.lastActive == c.lastActive && r.client.wire == c.wire
    ensures IsConnected(c) && c.hasStream ==>
              (var got := ReceiveLoop(Receive(t), input, rounds);
               r.outcome == Ok(()) && r.rest == got.rest
               && (IsConnected(r.client) <==> !got.failed)
               && (r.client.hasStream <==> !got.failed)
               && (got.failed ==> r.client.socket.None?)
               && r.client.events == c.events + Announce(got.payloads)
                                     + (if got.failed then [Disconnected] else []))
  {
    if !IsConnected(c) then Listened(c, Err(InvalidOperation(NotConnected)), input)
    else if !c.hasStream then Listened(c, Err(InvalidOperation(StreamNotInitialized)), input)
    else
      var got := ReceiveLoop(Receive(t), input, rounds);
      var heard := c.(events := c.events + Announce(got.payloads));
      Listened(if got.failed then Disconnect(heard) else heard, Ok(()), got.rest)
  }

  // ------------------------------------------------------------ properties

  /** Whether every payload is one a frame can carry. */
  predicate Carriable(ps: seq<Bytes>)
  {
    forall i :: 0 <= i < |ps| ==> 1 <= |ps[i]| <= MaxPayloadSize
  }

  /** Whether every successful receive of recv yields a payload a frame can
      carry, as every successful ReceiveData does. */
  ghost predicate Bounded(recv: Receiver)
  {
    forall s {:trigger recv(s)} :: recv(s).outcome.Ok? ==> 1 <= |recv(s).outcome.value| <= MaxPayloadSize
  }

  /** Every payload a loop with such a receive gets can be carried by a frame. */
  lemma {:induction false} ReceivedCarriable(recv: Receiver, input: Stream, rounds: nat)
    requires Bounded(recv)
    ensures Carriable(ReceiveLoop(recv, input, rounds).payloads)
    decreases rounds
  {
    if rounds > 0 {
      var step := recv(input);
      if step.outcome.Ok? {
        ReceivedCarriable(recv, step.rest, rounds - 1);
        var r := ReceiveLoop(recv, step.rest, rounds - 1);
        assert ReceiveLoop(recv, input, rounds).payloads == [step.outcome.value] + r.payloads;
      }
    }
  }

  /** Every payload the listen loop hands to OnDataReceived is between 1 and
      MaxPayloadSize bytes long, so the loop's empty-message skip never fires. */
  lemma ListenPayloadsValid(t: Transport, input: Stream, rounds: nat)
    ensures Carriable(ReceiveLoop(Receive(t), input, rounds).payloads)
  {
    var recv := Receive(t);
    forall s ensures recv(s).outcome.Ok? ==> 1 <= |recv(s).outcome.value| <= MaxPayloadSize {
    }
    ReceivedCarriable(recv, input, rounds);
  }

  /** The frames of the payloads ps, back to back. */
  function Wire(ps: seq<Bytes>): (w: Bytes)
    requires Carriable(ps)
    ensures ps == [] <==> w == []
  {
    if ps == [] then [] else Frame(ps[0]) + Wire(ps[1..])
  }

  /** What a receive must do for the listen loop to deliver frames: take a
      whole frame off the front of the stream, and fail on an exhausted one. */
  ghost predicate ReadsFrames(recv: Receiver)
  {
    && (forall s {:trigger HeaderValue(s)} ::
          (|Data(s)| >= 4 && 0 < HeaderValue(s) <= MaxPayloadSize && 4 + HeaderValue(s) <= |Data(s)|) ==>
            recv(s).outcome == Ok(Data(s)[4..4 + HeaderValue(s)])
            && Data(recv(s).rest) == Data(s)[4 + HeaderValue(s)..])
    && (forall s {:trigger recv(s)} :: Data(s) == [] ==> recv(s).outcome.Err?)
  }

  /** The corrected ReceiveData reads frames. */
  lemma ReceiveDataReadsFrames()
    ensures ReadsFrames(ReceiveData)
  {
    forall s | |Data(s)| >= 4
      ensures 0 < HeaderValue(s) <= MaxPayloadSize && 4 + HeaderValue(s) <= |Data(s)| ==>
                ReceiveData(s).outcome == Ok(Data(s)[4..4 + HeaderValue(s)])
                && Data(ReceiveData(s).rest) == Data(s)[4 + HeaderValue(s)..]
    {
      ReceiveDataCases(s);
    }
    forall s | Data(s) == []
      ensures ReceiveData(s).outcome.Err?
    {
      ReceiveDataCases(s);
    }
  }

  /** A stream that starts with the frame of p has p's length as its header,
      p after the header and tail after the frame. */
  lemma FrameAtFront(p: Bytes, s: Stream, tail: Bytes)
    requires 1 <= |p| <= MaxPayloadSize
    requires Data(s) == Frame(p) + tail
    ensures |Data(s)| >= 4 && HeaderValue(s) == |p| && 4 + |p| <= |Data(s)|
    ensures Data(s)[4..4 + |p|] == p && Data(s)[4 + |p|..] == tail
  {
    var f := Frame(p);
    assert Data(s)[..4] == f[..4];
    assert Data(s)[4..4 + |p|] == p by {
      assert Data(s)[..4 + |p|] == f;
    }
  }

  /** Receiving with a receive that reads frames from the frames of ps, in
      any chunking, yields ps in order. If the token is seen set right after
      the last frame, the bytes after the frames are left; if the loop goes
      on and the peer has nothing more to send, the next receive fails. */
  lemma {:induction false} ReceiveFrames(recv: Receiver, ps: seq<Bytes>, s: Stream, more: Bytes, rounds: nat)
    requires ReadsFrames(recv) && Carriable(ps)
    requires Data(s) == Wire(ps) + more
    requires |ps| <= rounds
    requires rounds > |ps| ==> more == []
    ensures ReceiveLoop(recv, s, rounds).payloads == ps
    ensures rounds == |ps| ==> Data(ReceiveLoop(recv, s, rounds).rest) == more
    decreases |ps|
  {
    if ps == [] {
      assert Data(s) == more;
      if rounds > 0 {
        ReceiveExhausted(recv, s, rounds);
      }
    } else {
      var later := ps[1..];
      WireFront(ps, more);
      TakeFrame(recv, ps[0], s, Wire(later) + more, rounds);
      ReceiveFrames(recv, later, recv(s).rest, more, rounds - 1);
    }
  }

  /** On a stream with nothing left, a receive that reads frames gets no
      payload: the loop stops at its first round. */
  lemma ReceiveExhausted(recv: Receiver, s: Stream, rounds: nat)
    requires ReadsFrames(recv) && Data(s) == []
    ensures ReceiveLoop(recv, s, rounds).payloads == []
  {
    if rounds > 0 {
      assert recv(s).outcome.Err?;
    }
  }

  /** The wire of a non-empty list of payloads is the first frame, then the
      wire of the others. */
  lemma WireFront(ps: seq<Bytes>, more: Bytes)
    requires ps != [] && Carriable(ps)
    ensures Carriable(ps[1..]) && ps == [ps[0]] + ps[1..]
    ensures Wire(ps) + more == Frame(ps[0]) + (Wire(ps[1..]) + more)
  {
    var later := ps[1..];
    forall i | 0 <= i < |later| ensures 1 <= |later[i]| <= MaxPayloadSize {
      assert later[i] == ps[i + 1];
    }
  }

  /** The first round of the loop, on a stream that starts with the frame of
      p, gets p and goes on with the bytes after the frame. */
  lemma TakeFrame(recv: Receiver, p: Bytes, s: Stream, tail: Bytes, rounds: nat)
    requires ReadsFrames(recv) && 1 <= |p| <= MaxPayloadSize && rounds >= 1
    requires Data(s) == Frame(p) + tail
    ensures Data(recv(s).rest) == tail
    ensures ReceiveLoop(recv, s, rounds).payloads == [p] + ReceiveLoop(recv, recv(s).rest, rounds - 1).payloads
    ensures ReceiveLoop(recv, s, rounds).rest == ReceiveLoop(recv, recv(s).rest, rounds - 1).rest
  {
    FrameAtFront(p, s, tail);
    assert recv(s).outcome == Ok(p);
  }

  /** A client whose transceiver is corrected, listening on the frames of
      ps, raises one OnDataReceived per payload, in order; it stays connected when the token is seen set right
      after the last frame, and disconnects when the peer has nothing more
      to send. */
  lemma ListenDelivers(c: Client, ps: seq<Bytes>, s: Stream, rounds: nat)
    requires IsConnected(c) && c.hasStream
    requires Carriable(ps) && Data(s) == Wire(ps)
    requires |ps| <= rounds
    ensures rounds == |ps| ==>
              ListenAsync(c, Corrected, s, rounds).client == c.(events := c.events + Announce(ps))
    ensures rounds > |ps| ==>
              ListenAsync(c, Corrected, s, rounds).client == Disconnect(c.(events := c.events + Announce(ps)))
  {
    assert Receive(Corrected) == ReceiveData;
    ReceiveDataReadsFrames();
    assert Data(s) == Wire(ps) + [];
    ReceiveFrames(ReceiveData, ps, s, [], rounds);
  }

  /** Whether the message m passes SendDataAsync's checks. */
  predicate Sendable(m: string)
  {
    Payload(Some(m)).Ok?
  }

  /** The bytes on the wire after the messages ms were sent one by one. */
  function FramesOf(ms: seq<string>): (w: Bytes)
    requires forall i :: 0 <= i < |ms| ==> Sendable(ms[i])
    ensures ms == [] <==> w == []
  {
    if ms == [] then []
    else
      assert Sendable(ms[0]);
      SendDataAsync(Some(ms[0]), Written).writes[0] + FramesOf(ms[1..])
  }

  /** The UTF-8 encodings of the messages ms, in order. */
  function Encodings(ms: seq<string>): (es: seq<Bytes>)
    ensures |es| == |ms|
    ensures forall i :: 0 <= i < |ms| ==> es[i] == Encode(ms[i])
  {
    if ms == [] then [] else [Encode(ms[0])] + Encodings(ms[1..])
  }

  /** Sending messages one by one puts the frames of their encodings on the
      wire. */
  lemma {:induction false} FramesOfMessages(ms: seq<string>)
    requires forall i :: 0 <= i < |ms| ==> Sendable(ms[i])
    ensures Carriable(Encodings(ms))
    ensures FramesOf(ms) == Wire(Encodings(ms))
  {
    if ms != [] {
      var later := ms[1..];
      assert forall i :: 0 <= i < |later| ==> later[i] == ms[i + 1];
      FramesOfMessages(later);
      assert Sendable(ms[0]);
      SendDataAsyncFrame(ms[0]);
      assert Encodings(ms) == [Encode(ms[0])] + Encodings(later);
    }
  }

  /** The messages a peer sends with the corrected transceiver, received by
      a listening client with the corrected transceiver: one
      OnDataReceived per message, carrying its UTF-8 bytes. */
  lemma ListenReceivesSent(c: Client, ms: seq<string>, s: Stream, rounds: nat)
    requires IsConnected(c) && c.hasStream
    requires forall i :: 0 <= i < |ms| ==> Sendable(ms[i])
    requires Data(s) == FramesOf(ms)
    requires |ms| <= rounds
    ensures rounds == |ms| ==>
              ListenAsync(c, Corrected, s, rounds).client == c.(events := c.events + Announce(Encodings(ms)))
    ensures rounds > |ms| ==>
              ListenAsync(c, Corrected, s, rounds).client == Disconnect(c.(events := c.events + Announce(Encodings(ms))))
  {
    FramesOfMessages(ms);
    ListenDelivers(c, Encodings(ms), s, rounds);
  }

  /** A failed send leaves the client disconnected, so the next send is
      refused before anything is written. */
  lemma FailedSendDisconnects(c: Client, t: Transport, a: Option<string>, sink: WriteOutcome, b: Option<string>,
                              sink': WriteOutcome, now: nat, later: nat)
    requires IsConnected(c) && c.hasStream
    requires SendAsync(c, t, a, sink, now).outcome.Err?
    ensures SendAsync(SendAsync(c, t, a, sink, now).client, t, b, sink', later)
              == Call(SendAsync(c, t, a, sink, now).client, Err(InvalidOperation(NotConnected)))
  {
  }

  /** Sending an empty message is refused by SendDataAsync and, through the
      catch-all handler, disconnects the client without writing. */
  lemma EmptyMessageDisconnects(c: Client, t: Transport, sink: WriteOutcome, now: nat)
    requires IsConnected(c) && c.hasStream
    ensures SendAsync(c, t, Some(""), sink, now)
              == Call(Disconnect(c), Err(InvalidOperation(SendFailed(ArgumentNull))))
  {
  }

  /** Connecting and then sending a message writes exactly its frame and
      raises OnConnect then OnDataSent. */
  lemma ConnectThenSend(c: Client, m: string, t0: nat, t1: nat)
    requires Sendable(m)
    ensures var c1 := ConnectAsync(c, Established, t0).client;
            var r := SendAsync(c1, Corrected, Some(m), Written, t1);
            r.outcome == Ok(()) && IsConnected(r.client) && r.client.lastActive == t1
            && r.client.wire == c.wire + [FramesOf([m])]
            && r.client.events == c.events + [Connected, DataSent]
  {
    var c1 := ConnectAsync(c, Established, t0).client;
    var ms: seq<string> := [m];
    assert ms[1..] == [];
    assert FramesOf(ms) == SendDataAsync(Some(m), Written).writes[0];
  }

  /** Disconnect always raises OnDisconnect: a second call changes nothing
      but the event record. */
  lemma DisconnectTwice(c: Client)
    ensures Disconnect(Disconnect(c)) == Disconnect(c).(events := c.events + [Disconnected, Disconnected])
  {
  }

  /** A client whose connect failed can neither send nor listen. */
  lemma FailedConnectRefuses(c: Client, t: Transport, cause: Error, data: Option<string>, sink: WriteOutcome,
                             input: Stream, now: nat, rounds: nat)
    ensures var c1 := ConnectAsync(c, ConnectThrows(cause), now).client;
            SendAsync(c1, t, data, sink, now).outcome == Err(InvalidOperation(NotConnected))
            && ListenAsync(c1, t, input, rounds).outcome == Err(InvalidOperation(NotConnected))
  {
  }

  /** A client sending "é" with the transceiver as written puts the header 1
      on the wire in front of the two payload bytes; the corrected one puts
      the frame of those two bytes, whose header is 2. */
  lemma SendNonAscii(c: Client, m: string, now: nat)
    requires IsConnected(c) && c.hasStream
    requires m == "é"
    ensures SendAsync(c, AsWritten, Some(m), Written, now).client.wire == c.wire + [[1, 0, 0, 0, 0xC3, 0xA9]]
    ensures SendAsync(c, Corrected, Some(m), Written, now).client.wire == c.wire + [Frame([0xC3, 0xA9])]
  {
    Framing.CharCountHeaderCounterexample(m);
    Utf8.NonAsciiExample();
    assert Sendable(m);
    SendDataAsyncFrame(m);
  }

  /** A header arriving in two reads of two bytes: the client as written
      decodes a zero length, the receive throws and the client disconnects
      without raising OnDataReceived. */
  lemma ListenSplitHeaderAsWritten(c: Client, s: Stream)
    requires IsConnected(c) && c.hasStream
    requires s == Stream([[2, 0], [0, 0], [72, 105]])
    ensures ListenAsync(c, AsWritten, s, 1).client == Disconnect(c)
  {
    Framing.SplitHeaderCounterexample(s);
    assert Receive(AsWritten) == ReceiveDataAsWritten;
    var got := ReceiveLoop(ReceiveDataAsWritten, s, 1);
    assert got.failed && got.payloads == [];
    assert c.(events := c.events + Announce([])) == c;
  }

  /** The same stream, with the corrected transceiver: the client receives
      the payload and stays connected. */
  lemma ListenSplitHeaderCorrected(c: Client, s: Stream)
    requires IsConnected(c) && c.hasStream
    requires s == Stream([[2, 0], [0, 0], [72, 105]])
    ensures ListenAsync(c, Corrected, s, 1).client == c.(events := c.events + [DataReceived([72, 105])])
  {
    Framing.SplitHeaderCorrected(s);
    assert Receive(Corrected) == ReceiveData;
    var step := ReceiveData(s);
    var got := ReceiveLoop(ReceiveData, s, 1);
    assert got.payloads == [step.outcome.value] + ReceiveLoop(ReceiveData, step.rest, 0).payloads;
    assert got.payloads == [[72, 105]];
    assert !got.failed;
    assert Announce(got.payloads) == [DataReceived([72, 105])];
  }

  /** An ID made only of white space is refused whatever its length, and
      the length limit counts UTF-16 code units: two characters outside the
      Basic Multilingual Plane make an acceptable ID. */
  lemma IdExamples(spaces: string, pair: string)
    requires forall i :: 0 <= i < |spaces| ==> spaces[i] == ' '
    requires pair == "\U{1F600}\U{1F600}"
    ensures NewClient(Some(spaces)) == Err(Argument)
    ensures NewClient(Some(pair)).Ok?
  {
    assert !IsWhiteSpace(pair[0]);
    var tail := pair[1..];
    assert tail == ['\U{1F600}'] && tail[1..] == [];
    assert Utf16Length(tail) == 2;
    assert Utf16Length(pair) == Utf16Units(pair[0]) + Utf16Length(tail);
  }
}

=== FILE: framing.dfy ===
/** Properties of the framing in Transceiver: the send/receive round trip over
    any chunking of the stream, the size limits at their boundaries, the
    concrete cases the repository's tests exercise, and the two defects of the
    code as written together with inputs that show them. */
module Framing {
  import opened Types
  import opened BitConverter
  import opened Utf8
  import opened Buffers
  import opened Streams
  import opened Transceiver

  /** Whatever chunks the peer's bytes arrive in, receiving a frame that was
      sent gives back the message's UTF-8 bytes, which decode to the message,
      and leaves exactly the bytes after the frame in the stream. */
  lemma SendThenReceive(m: string, s: Stream, more: Bytes)
    requires Payload(Some(m)).Ok?
    requires Data(s) == SendDataAsync(Some(m), Written).writes[0] + more
    ensures ReceiveData(s).outcome == Ok(Encode(m))
    ensures Data(ReceiveData(s).rest) == more
    ensures Decode(ReceiveData(s).outcome.value) == Some(m)
  {
    var w := SendDataAsync(Some(m), Written).writes[0];
    var n := |Encode(m)|;
    assert Data(s)[..4] == w[..4];
    assert HeaderValue(s) == n;
    assert Data(s)[4..4 + n] == w[4..] by {
      assert Data(s)[..4 + n] == w;
    }
    assert Data(s)[4 + n..] == more;
    ReceiveDataCases(s);
    DecodeEncode(m);
  }

  /** For an ASCII message the UTF-8 size is its length, so a send is accepted
      exactly when 1 <= |m| <= MaxPayloadSize. */
  lemma AsciiSizeBoundary(m: string, sink: WriteOutcome)
    requires forall i :: 0 <= i < |m| ==> IsAscii(m[i])
    ensures |SendDataAsync(Some(m), sink).writes| == 1 <==> 1 <= |m| <= MaxPayloadSize
    ensures |m| > MaxPayloadSize ==>
              SendDataAsync(Some(m), sink) == Sent([], Err(ArgumentOutOfRange))
  {
    EncodeAscii(m);
  }

  /** new string('a', 1000000) is sent in one write; new string('a', 1048577)
      is refused with ArgumentOutOfRangeException before any write. */
  lemma LargeMessages()
    ensures |SendDataAsync(Some(seq(1000000, _ => 'a')), Written).writes| == 1
    ensures SendDataAsync(Some(seq(1000000, _ => 'a')), Written).outcome == Ok(())
    ensures SendDataAsync(Some(seq(1048577, _ => 'a')), Written)
              == Sent([], Err(ArgumentOutOfRange))
    ensures SendDataAsyncAsWritten(Some(seq(1000000, _ => 'a')), Written)
              == SendDataAsync(Some(seq(1000000, _ => 'a')), Written)
    ensures SendDataAsyncAsWritten(Some(seq(1048577, _ => 'a')), Written)
              == Sent([], Err(ArgumentOutOfRange))
  {
    var small, large := seq(1000000, _ => 'a'), seq(1048577, _ => 'a');
    AsciiSizeBoundary(small, Written);
    AsciiSizeBoundary(large, Written);
    CharCountHeaderIffAscii(small, Written);
  }

  /** The UTF-8 bytes of "Hello, World!". */
  lemma HelloWorldBytes(m: string)
    requires m == "Hello, World!"
    ensures Encode(m) == [72, 101, 108, 108, 111, 44, 32, 87, 111, 114, 108, 100, 33]
  {
    assert forall i :: 0 <= i < |m| ==> IsAscii(m[i]);
    EncodeAscii(m);
    var e: Bytes := [72, 101, 108, 108, 111, 44, 32, 87, 111, 114, 108, 100, 33];
    assert forall i :: 0 <= i < 13 ==> m[i] as int == e[i];
  }

  /** "Hello, World!" is framed as the header 13, 0, 0, 0 and its 13 ASCII
      bytes. */
  lemma HelloWorldSent(m: string)
    requires m == "Hello, World!"
    ensures SendDataAsync(Some(m), Written)
              == Sent([[13, 0, 0, 0, 72, 101, 108, 108, 111, 44, 32, 87, 111, 114, 108, 100, 33]], Ok(()))
  {
    HelloWorldBytes(m);
    var e: Bytes := [72, 101, 108, 108, 111, 44, 32, 87, 111, 114, 108, 100, 33];
    assert Payload(Some(m)) == Ok(e);
    SendDataAsyncFrame(m);
    FrameBytes(e);
    GetBytesThirteen();
    var h: Bytes := [13, 0, 0, 0];
    assert h + e == [13, 0, 0, 0, 72, 101, 108, 108, 111, 44, 32, 87, 111, 114, 108, 100, 33];
  }

  /** The message being ASCII, the code as written sends the same single
      write: the one the repository's send test expects. */
  lemma HelloWorldSentAsWritten(m: string)
    requires m == "Hello, World!"
    ensures SendDataAsyncAsWritten(Some(m), Written)
              == Sent([[13, 0, 0, 0, 72, 101, 108, 108, 111, 44, 32, 87, 111, 114, 108, 100, 33]], Ok(()))
  {
    HelloWorldSent(m);
    assert forall i :: 0 <= i < |m| ==> IsAscii(m[i]);
    CharCountHeaderIffAscii(m, Written);
  }

  /** Receiving the "Hello, World!" frame in one piece gives the message
      back. */
  lemma HelloWorldReceived(m: string, s: Stream)
    requires m == "Hello, World!"
    requires s == Stream([[13, 0, 0, 0, 72, 101, 108, 108, 111, 44, 32, 87, 111, 114, 108, 100, 33]])
    ensures ReceiveData(s).outcome == Ok(Encode(m))
    ensures Decode(ReceiveData(s).outcome.value) == Some(m)
  {
    HelloWorldBytes(m);
    var d: Bytes := [13, 0, 0, 0, 72, 101, 108, 108, 111, 44, 32, 87, 111, 114, 108, 100, 33];
    assert Data(s) == d by {
      assert Data(Stream(s.chunks[1..])) == [];
    }
    assert d[..4] == [13, 0, 0, 0];
    assert HeaderValue(s) == 13;
    assert d[4..17] == Encode(m);
    ReceiveDataCases(s);
    DecodeEncode(m);
  }

  /** A stream holding a header of -1 (the bytes FF FF FF FF) is refused
      with ArgumentOutOfRangeException before any payload read, by both the
      code as written and the corrected receive. */
  lemma NegativeHeaderRejected(more: seq<Bytes>)
    ensures ReceiveData(Stream([GetBytes(-1)] + more)).outcome == Err(ArgumentOutOfRange)
    ensures ReceiveDataAsWritten(Stream([GetBytes(-1)] + more)).outcome == Err(ArgumentOutOfRange)
  {
    GetBytesMinusOne();
    var s := Stream([GetBytes(-1)] + more);
    assert s.chunks[1..] == more;
    assert Data(s)[..4] == GetBytes(-1);
    var h := ReadBytesAsWritten(s, Zeros(4), 4);
    assert h.outcome.value.buffer == GetBytes(-1);
  }

  /** The peer sends the header for 4 bytes and then only 2 before closing:
      both receives fail with the IOException for a stream closed early. */
  lemma ClosedMidFrame()
    ensures ReceiveData(Stream([GetBytes(4), [1, 2]])).outcome == Err(ConnectionClosed)
    ensures ReceiveDataAsWritten(Stream([GetBytes(4), [1, 2]])).outcome == Err(ConnectionClosed)
  {
    var s := Stream([GetBytes(4), [1, 2]]);
    ToInt32GetBytes(4);
    assert Data(Stream(s.chunks[1..])) == [1, 2] by {
      assert Data(Stream(s.chunks[2..])) == [];
    }
    assert Data(s) == GetBytes(4) + [1, 2];
    assert Data(s)[..4] == GetBytes(4);
    var h := ReadBytesAsWritten(s, Zeros(4), 4);
    assert h.outcome.value.buffer == GetBytes(4);
  }

  /** A header of 0 passes ValidatePayloadSize, which admits 0, and is then
      refused by the payload read's own range check, before any payload byte
      is consumed. */
  lemma ZeroLengthHeader(s: Stream)
    requires |Data(s)| >= 4 && Data(s)[..4] == [0, 0, 0, 0]
    ensures ValidatePayloadSize(0).Ok?
    ensures ReadExactly(s, 0).outcome == Err(ArgumentOutOfRange)
    ensures ReceiveData(s).outcome == Err(ArgumentOutOfRange)
    ensures Data(ReceiveData(s).rest) == Data(s)[4..]
  {
    assert HeaderValue(s) == 0;
  }

  /** The code as written receives correctly when the header and the payload
      each arrive in a single read, as in the repository's receive test. */
  lemma AsWrittenSingleReads(payload: Bytes, more: seq<Bytes>)
    requires 1 <= |payload| <= MaxPayloadSize
    ensures ReceiveDataAsWritten(Stream([GetBytes(|payload|), payload] + more)).outcome == Ok(payload)
  {
    var n := |payload|;
    var s := Stream([GetBytes(n), payload] + more);
    var s1 := Stream([payload] + more);
    var s2 := Stream(more);
    assert s.chunks[1..] == s1.chunks && s1.chunks[1..] == s2.chunks;
    ToInt32GetBytes(n);
    assert Read(s, 4) == (GetBytes(n), s1);
    assert GetBytes(n) + Zeros(4)[4..] == GetBytes(n);
    assert ReadLoopAsWritten(s1, GetBytes(n), 4, 4) == Step(Ok(Filled(GetBytes(n), 4)), s1);
    assert ReadBytesAsWritten(s, Zeros(4), 4) == Step(Ok(Filled(GetBytes(n), 4)), s1);
    assert Read(s1, n) == (payload, s2);
    assert payload + Zeros(n)[n..] == payload;
    assert ReadLoopAsWritten(s2, payload, n, n) == Step(Ok(Filled(payload, n)), s2);
    assert ReadBytesAsWritten(s1, Zeros(n), n) == Step(Ok(Filled(payload, n)), s2);
  }

  // ------------------------------------------------ finding: length header

  /** The header written as string.Length agrees with the payload byte count
      exactly when the message is ASCII. */
  lemma CharCountHeaderIffAscii(m: string, sink: WriteOutcome)
    requires Payload(Some(m)).Ok?
    ensures (SendDataAsyncAsWritten(Some(m), sink) == SendDataAsync(Some(m), sink)) <==>
              (forall i :: 0 <= i < |m| ==> IsAscii(m[i]))
  {
    Utf16LengthIsByteCountIffAscii(m);
    var n := |Encode(m)|;
    var w := SendDataAsync(Some(m), sink).writes[0];
    assert w == w[..4] + w[4..];
    GetBytesToInt32(w[..4]);
    assert w == GetBytes(n) + Encode(m);
    GetBytesInjective(Utf16Length(m), n);
    var a := GetBytes(Utf16Length(m)) + Encode(m);
    if a == w {
      assert a[..4] == GetBytes(Utf16Length(m)) && w[..4] == GetBytes(n);
    }
  }

  /** "é" is written with header 1, its length in UTF-16 code units, but
      with its two UTF-8 bytes as payload. */
  lemma CharCountHeaderCounterexample(m: string)
    requires m == "é"
    ensures SendDataAsyncAsWritten(Some(m), Written).writes == [[1, 0, 0, 0, 0xC3, 0xA9]]
  {
    NonAsciiExample();
    assert Encode(m) == [0xC3, 0xA9];
    assert Payload(Some(m)) == Ok([0xC3, 0xA9]);
    assert GetBytes(1) == [1, 0, 0, 0];
    var h: Bytes := [1, 0, 0, 0];
    var e: Bytes := [0xC3, 0xA9];
    assert h + e == [1, 0, 0, 0, 0xC3, 0xA9];
  }

  /** Receiving that frame takes the payload [C3] and leaves the byte A9
      where the next header is expected. */
  lemma CharCountHeaderReceived(s: Stream)
    requires s == Stream([[1, 0, 0, 0, 0xC3, 0xA9]])
    ensures ReceiveData(s).outcome == Ok([0xC3])
    ensures Data(ReceiveData(s).rest) == [0xA9]
  {
    var d: Bytes := [1, 0, 0, 0, 0xC3, 0xA9];
    assert Data(s) == d by {
      assert Data(Stream(s.chunks[1..])) == [];
    }
    assert d[..4] == [1, 0, 0, 0] && d[4..5] == [0xC3] && d[5..] == [0xA9];
    assert HeaderValue(s) == 1;
    ReceiveDataCases(s);
  }

  /** The payload received from that frame, the lead byte C3 alone, is not
      valid UTF-8: GetString would not give the message back. */
  lemma CharCountHeaderUndecodable(s: Stream)
    requires s == Stream([[1, 0, 0, 0, 0xC3, 0xA9]])
    ensures ReceiveData(s).outcome.Ok? && Decode(ReceiveData(s).outcome.value) == None
  {
    CharCountHeaderReceived(s);
  }

  // ------------------------------------------------ finding: read offset

  /** A header delivered in two reads of two bytes: the code as written
      overwrites the first two bytes with the second two, decodes a zero
      length and the payload read refuses it. */
  lemma SplitHeaderCounterexample(s: Stream)
    requires s == Stream([[2, 0], [0, 0], [72, 105]])
    ensures ReadBytesAsWritten(s, Zeros(4), 4) == Step(Ok(Filled([0, 0, 0, 0], 4)), Stream([[72, 105]]))
    ensures ReceiveDataAsWritten(s).outcome == Err(ArgumentOutOfRange)
  {
    var z: Bytes := [0, 0, 0, 0];
    var c1: Bytes := [2, 0];
    var c2: Bytes := [0, 0];
    var b1: Bytes := [2, 0, 0, 0];
    var last: seq<Bytes> := [[72, 105]];
    assert s == Stream([c1] + ([c2] + last));
    ReadLoopChunk(c1, [c2] + last, z, 4, 0);
    assert c1 + z[2..] == b1;
    ReadLoopChunk(c2, last, b1, 4, 2);
    assert c2 + b1[2..] == z;
    assert Zeros(4) == z;
    assert ToInt32(z) == 0;
  }

  /** The corrected read assembles the split header 2 and gets the payload. */
  lemma SplitHeaderCorrected(s: Stream)
    requires s == Stream([[2, 0], [0, 0], [72, 105]])
    ensures ReceiveData(s).outcome == Ok([72, 105])
  {
    var d: Bytes := [2, 0, 0, 0, 72, 105];
    assert Data(s) == d by {
      var s1 := Stream(s.chunks[1..]);
      var s2 := Stream(s1.chunks[1..]);
      assert Data(Stream(s2.chunks[1..])) == [];
      assert Data(s2) == [72, 105];
      assert Data(s1) == [0, 0, 72, 105];
    }
    assert d[..4] == [2, 0, 0, 0] && d[4..6] == [72, 105];
    assert HeaderValue(s) == 2;
    ReceiveDataCases(s);
  }

  /** When the rest of the header and the start of the payload arrive
      together, the second read of the code as written takes them all: it
      counts 6 header bytes, swallows two payload bytes into the header and
      decodes a length far above the limit. */
  lemma OverReadCounterexample(s: Stream)
    requires s == Stream([[2, 0], [0, 0, 72, 105]])
    ensures ReadBytesAsWritten(s, Zeros(4), 4) == Step(Ok(Filled([0, 0, 72, 105], 6)), Stream([]))
    ensures ReceiveDataAsWritten(s).outcome == Err(ArgumentOutOfRange)
  {
    var z: Bytes := [0, 0, 0, 0];
    var c1: Bytes := [2, 0];
    var b1: Bytes := [2, 0, 0, 0];
    var b2: Bytes := [0, 0, 72, 105];
    var none: seq<Bytes> := [];
    assert s == Stream([c1] + ([b2] + none));
    ReadLoopChunk(c1, [b2] + none, z, 4, 0);
    assert c1 + z[2..] == b1;
    ReadLoopChunk(b2, none, b1, 4, 2);
    assert b2 + b1[4..] == b2;
    assert Zeros(4) == z;
    assert ToInt32(b2) == 0x6948_0000;
  }

  /** The corrected read takes the header 2 and then the payload from the
      same chunk. */
  lemma OverReadCorrected(s: Stream)
    requires s == Stream([[2, 0], [0, 0, 72, 105]])
    ensures ReceiveData(s).outcome == Ok([72, 105])
  {
    var d: Bytes := [2, 0, 0, 0, 72, 105];
    assert Data(s) == d by {
      var s1 := Stream(s.chunks[1..]);
      assert Data(Stream(s1.chunks[1..])) == [];
      assert Data(s1) == [0, 0, 72, 105];
    }
    assert d[..4] == [2, 0, 0, 0] && d[4..6] == [72, 105];
    assert HeaderValue(s) == 2;
    ReceiveDataCases(s);
  }
}

=== FILE: streams.dfy ===
/** The receive direction of a NetworkStream, as the reader sees it. The peer's
    bytes arrive in chunks: chunks[k] is what becomes available to the k-th
    read. A read asking for count bytes takes up to count bytes of the next
    chunk and leaves the rest of that chunk for the following read, so no byte
    is lost or reordered. An empty chunk, or the end of the list, is the end of
    the stream: from there on every read returns 0. */
module Streams {
  import opened Types

  datatype Stream = Stream(chunks: seq<Bytes>)

  /** Every byte the stream will still deliver, in order. */
  function Data(s: Stream): Bytes
    decreases |s.chunks|
  {
    if s.chunks == [] || s.chunks[0] == [] then [] else s.chunks[0] + Data(Stream(s.chunks[1..]))
  }

  /** One ReadAsync with room for count bytes: the bytes delivered and the
      stream after the read. It returns 0 bytes only at the end of the stream. */
  function Read(s: Stream, count: nat): (r: (Bytes, Stream))
    ensures |r.0| <= count
    ensures r.0 + Data(r.1) == Data(s)
    ensures count > 0 ==> (|r.0| == 0 <==> Data(s) == [])
  {
    if count == 0 || s.chunks == [] || s.chunks[0] == [] then ([], s)
    else
      var c := s.chunks[0];
      if |c| <= count then (c, Stream(s.chunks[1..]))
      else
        var rest := Stream([c[count..]] + s.chunks[1..]);
        assert rest.chunks[1..] == s.chunks[1..];
        assert c[..count] + c[count..] == c;
        (c[..count], rest)
  }
}

=== FILE: transceiver.dfy ===
/** Server.Network.NetworkTransceiver: length-prefixed message framing.
    A frame is a 4-byte little-endian int32 length followed by the UTF-8
    payload. The send side validates and frames a message and writes it once;
    the receive side reads the header, range-checks it and reads the payload.

    Two defects of the C# code are modelled as written (the ...AsWritten
    members) beside their corrected forms, which the rest of the model uses:
    the header carries string.Length rather than the UTF-8 byte count, and the
    read loop reads every chunk into the start of the buffer. */
module Transceiver {
  import opened Types
  import opened BitConverter
  import opened Utf8
  import opened Buffers
  import opened Streams

  const MaxPayloadSize: int := 1048576

  /** ValidatePayloadSize: throws unless 0 <= dataSize <= MaxPayloadSize. */
  function ValidatePayloadSize(dataSize: int): (r: Result<()>)
    ensures r.Ok? <==> 0 <= dataSize && dataSize <= MaxPayloadSize
    ensures r.Err? ==> r.error == ArgumentOutOfRange
  {
    if dataSize < 0 || dataSize > MaxPayloadSize then Err(ArgumentOutOfRange) else Ok(())
  }

  // ---------------------------------------------------------------- send

  /** What the single write of a send is handed, and how the write ends. */
  datatype WriteOutcome = Written | WriteThrows(error: Error)

  /** The writes a send issued, in order, and how the send ended. */
  datatype Sent = Sent(writes: seq<Bytes>, outcome: Result<()>)

  /** The checks SendDataAsync makes before writing: a null or empty message
      throws ArgumentNullException, an encoding over MaxPayloadSize bytes
      throws ArgumentOutOfRangeException. The result is the UTF-8 payload. */
  function Payload(message: Option<string>): (r: Result<Bytes>)
    ensures message.None? || message == Some("") ==> r == Err(ArgumentNull)
    ensures message.Some? && message.value != "" ==>
              (r.Ok? <==> |Encode(message.value)| <= MaxPayloadSize)
    ensures r.Err? && message.Some? && message.value != "" ==> r.error == ArgumentOutOfRange
    ensures r.Ok? ==> message.Some? && r.value == Encode(message.value)
    ensures r.Ok? ==> 1 <= |r.value| <= MaxPayloadSize
    ensures r.Ok? ==> Utf16Length(message.value) <= |r.value|
  {
    if message.None? || message.value == "" then Err(ArgumentNull)
    else
      var bytes := Encode(message.value);
      EncodeLengthBounds(message.value);
      match ValidatePayloadSize(|bytes|)
      case Err(e) => Err(e)
      case Ok(_) => Ok(bytes)
  }

  /** The wire form of a payload: its byte count as a little-endian int32,
      then the payload, merged with MergeBuffers. */
  function Frame(payload: Bytes): (f: Bytes)
    requires |payload| <= MaxPayloadSize
    ensures |f| == 4 + |payload|
    ensures ToInt32(f[..4]) == |payload|
    ensures f[4..] == payload
  {
    var header := GetBytes(|payload|);
    MergeTwo(header, payload);
    ToInt32GetBytes(|payload|);
    assert (header + payload)[..4] == header;
    MergeBuffers(Some([Some(header), Some(payload)])).value
  }

  /** A frame is the payload's byte count as GetBytes gives it, then the
      payload. */
  lemma FrameBytes(payload: Bytes)
    requires |payload| <= MaxPayloadSize
    ensures Frame(payload) == GetBytes(|payload|) + payload
  {
    var f := Frame(payload);
    GetBytesToInt32(f[..4]);
    assert f == f[..4] + f[4..];
  }

  /** An accepted message with a completed write is sent as the one frame of
      its payload. */
  lemma SendDataAsyncFrame(message: string)
    requires Payload(Some(message)).Ok?
    ensures SendDataAsync(Some(message), Written) == Sent([Frame(Encode(message))], Ok(()))
  {
  }

  /** SendDataAsync with the header corrected to the UTF-8 byte count: no write
      when validation fails, otherwise exactly one write of the frame, whose
      outcome is the send's outcome. */
  function SendDataAsync(message: Option<string>, sink: WriteOutcome): (r: Sent)
    ensures Payload(message).Err? ==> r == Sent([], Err(Payload(message).error))
    ensures Payload(message).Ok? ==> |r.writes| == 1
    ensures Payload(message).Ok? ==>
              (var w := r.writes[0];
               |w| == 4 + |Encode(message.value)| &&
               ToInt32(w[..4]) == |Encode(message.value)| && w[4..] == Encode(message.value))
    ensures Payload(message).Ok? ==> (r.outcome.Ok? <==> sink == Written)
    ensures Payload(message).Ok? && sink.WriteThrows? ==> r.outcome == Err(sink.error)
  {
    match Payload(message)
    case Err(e) => Sent([], Err(e))
    case Ok(bytes) =>
      var data := Frame(bytes);
      match sink
      case Written => Sent([data], Ok(()))
      case WriteThrows(e) => Sent([data], Err(e))
  }

  /** SendDataAsync as written: the header is message.Length, the number of
      UTF-16 code units, not the number of payload bytes. */
  function SendDataAsyncAsWritten(message: Option<string>, sink: WriteOutcome): (r: Sent)
    ensures Payload(message).Err? ==> r == Sent([], Err(Payload(message).error))
    ensures Payload(message).Ok? ==>
              r.writes == [GetBytes(Utf16Length(message.value)) + Encode(message.value)]
    ensures Payload(message).Ok? ==> (r.outcome.Ok? <==> sink == Written)
    ensures Payload(message).Ok? && sink.WriteThrows? ==> r.outcome == Err(sink.error)
  {
    match Payload(message)
    case Err(e) => Sent([], Err(e))
    case Ok(bytes) =>
      EncodeLengthBounds(message.value);
      var lengthBuffer := GetBytes(Utf16Length(message.value));
      MergeTwo(lengthBuffer, bytes);
      var data := MergeBuffers(Some([Some(lengthBuffer), Some(bytes)])).value;
      match sink
      case Written => Sent([data], Ok(()))
      case WriteThrows(e) => Sent([data], Err(e))
  }

  // ------------------------------------------------------------- receive

  /** The outcome of a receive step and the stream after it, also on failure. */
  datatype Step<+T> = Step(outcome: Result<T>, rest: Stream)

  /** The buffer after the read loop and the byte count the loop added up. */
  datatype Filled = Filled(buffer: Bytes, total: nat)

  /** ReadBytes(stream, dataBuffer, expectedMessageLength) as written: every
      read asks for the whole buffer and lands at offset 0. */
  function ReadBytesAsWritten(s: Stream, buffer: Bytes, expected: int): (r: Step<Filled>)
    ensures expected <= 0 || expected > |buffer| ==> r == Step(Err(ArgumentOutOfRange), s)
    ensures 0 < expected <= |buffer| ==> (r.outcome.Ok? <==> expected <= |Data(s)|)
    ensures 0 < expected <= |buffer| && r.outcome.Err? ==>
              r.outcome.error == ConnectionClosed && Data(r.rest) == []
    ensures r.outcome.Ok? ==>
              (var t := r.outcome.value.total;
               expected <= t < expected + |buffer| && t <= |Data(s)| &&
               Data(r.rest) == Data(s)[t..] && |r.outcome.value.buffer| == |buffer|)
  {
    if expected <= 0 || expected > |buffer| then Step(Err(ArgumentOutOfRange), s)
    else ReadLoopAsWritten(s, buffer, expected, 0)
  }

  /** The while loop of ReadBytes with total bytes counted so far. */
  function ReadLoopAsWritten(s: Stream, buffer: Bytes, expected: nat, total: nat): (r: Step<Filled>)
    requires 0 < expected <= |buffer| && total < expected + |buffer|
    ensures total >= expected ==> r == Step(Ok(Filled(buffer, total)), s)
    ensures total < expected ==> (r.outcome.Ok? <==> expected <= total + |Data(s)|)
    ensures r.outcome.Err? ==> r.outcome.error == ConnectionClosed && Data(r.rest) == []
    ensures r.outcome.Ok? ==>
              (var t := r.outcome.value.total;
               total <= t && expected <= t < expected + |buffer| && t - total <= |Data(s)| &&
               Data(r.rest) == Data(s)[t - total..] && |r.outcome.value.buffer| == |buffer|)
    decreases |Data(s)|
  {
    if total >= expected then Step(Ok(Filled(buffer, total)), s)
    else
      var (got, s') := Read(s, |buffer|);
      if |got| == 0 then Step(Err(ConnectionClosed), s')
      else
        assert Data(s)[|got|..] == Data(s');
        ReadLoopAsWritten(s', got + buffer[|got|..], expected, total + |got|)
  }

  /** One round of the as-written loop below the expected count, on a stream
      whose next chunk c fits the buffer: the read takes c, which lands at the
      start of the buffer, and adds |c| to the total. */
  lemma ReadLoopChunk(c: Bytes, later: seq<Bytes>, buffer: Bytes, expected: nat, total: nat)
    requires 0 < |c| <= |buffer| && 0 < expected <= |buffer| && total < expected
    ensures total + |c| < expected + |buffer|
    ensures ReadLoopAsWritten(Stream([c] + later), buffer, expected, total)
              == ReadLoopAsWritten(Stream(later), c + buffer[|c|..], expected, total + |c|)
  {
    var s := Stream([c] + later);
    assert s.chunks[0] == c && s.chunks[1..] == later;
    assert Read(s, |buffer|) == (c, Stream(later));
  }

  /** ReadBytes corrected to read each chunk into the unfilled part of an
      n-byte buffer, so that the buffer ends up holding the next n bytes. */
  function ReadExactly(s: Stream, n: int): (r: Step<Bytes>)
    ensures n <= 0 ==> r == Step(Err(ArgumentOutOfRange), s)
    ensures 0 < n <= |Data(s)| ==> r.outcome == Ok(Data(s)[..n]) && Data(r.rest) == Data(s)[n..]
    ensures 0 < n && |Data(s)| < n ==> r.outcome == Err(ConnectionClosed) && Data(r.rest) == []
  {
    if n <= 0 then Step(Err(ArgumentOutOfRange), s)
    else
      var r := Fill(s, n, []);
      assert n <= |Data(s)| ==> [] + Data(s)[..n] == Data(s)[..n];
      r
  }

  /** The corrected loop with acc holding the bytes read so far. */
  function Fill(s: Stream, n: nat, acc: Bytes): (r: Step<Bytes>)
    requires |acc| <= n
    ensures n <= |acc| + |Data(s)| ==>
              r.outcome == Ok(acc + Data(s)[..n - |acc|]) && Data(r.rest) == Data(s)[n - |acc|..]
    ensures |acc| + |Data(s)| < n ==> r.outcome == Err(ConnectionClosed) && Data(r.rest) == []
    decreases |Data(s)|
  {
    if |acc| == n then
      assert acc + Data(s)[..0] == acc && Data(s)[0..] == Data(s);
      Step(Ok(acc), s)
    else
      var (got, s') := Read(s, n - |acc|);
      if |got| == 0 then Step(Err(ConnectionClosed), s')
      else
        var r := Fill(s', n, acc + got);
        if n <= |acc| + |Data(s)| then
          Split(got, Data(s'), n - |acc|);
          assert acc + (got + Data(s')[..n - |acc| - |got|]) == (acc + got) + Data(s')[..n - |acc| - |got|];
          r
        else r
  }

  /** The value of the 4-byte header at the front of the stream. */
  function HeaderValue(s: Stream): int32
    requires |Data(s)| >= 4
  {
    ToInt32(Data(s)[..4])
  }

  /** ReceiveDataAsync with the corrected read loop. The payload is the byte
      array that Encoding.UTF8.GetString turns into the returned string. */
  function ReceiveData(s: Stream): (r: Step<Bytes>)
    ensures r.outcome.Ok? ==> 1 <= |r.outcome.value| <= MaxPayloadSize
  {
    var h := ReadExactly(s, 4);
    if h.outcome.Err? then Step(Err(h.outcome.error), h.rest)
    else ReceivePayload(h.rest, ToInt32(h.outcome.value))
  }

  /** What ReceiveData does with each kind of stream: too short for a header,
      a header outside 1..MaxPayloadSize (refused before any payload byte is
      read), a complete frame, and a frame cut short. */
  lemma ReceiveDataCases(s: Stream)
    ensures |Data(s)| < 4 ==> ReceiveData(s).outcome == Err(ConnectionClosed)
    ensures |Data(s)| >= 4 && !(0 < HeaderValue(s) <= MaxPayloadSize) ==>
              ReceiveData(s).outcome == Err(ArgumentOutOfRange) && Data(ReceiveData(s).rest) == Data(s)[4..]
    ensures |Data(s)| >= 4 && 0 < HeaderValue(s) <= MaxPayloadSize && 4 + HeaderValue(s) <= |Data(s)| ==>
              ReceiveData(s).outcome == Ok(Data(s)[4..4 + HeaderValue(s)]) &&
              Data(ReceiveData(s).rest) == Data(s)[4 + HeaderValue(s)..]
    ensures |Data(s)| >= 4 && 0 < HeaderValue(s) <= MaxPayloadSize && |Data(s)| < 4 + HeaderValue(s) ==>
              ReceiveData(s).outcome == Err(ConnectionClosed) && Data(ReceiveData(s).rest) == []
  {
    var h := ReadExactly(s, 4);
    if |Data(s)| >= 4 {
      assert h.outcome == Ok(Data(s)[..4]);
      assert Data(h.rest) == Data(s)[4..];
      var n := HeaderValue(s);
      assert ReceiveData(s) == ReceivePayload(h.rest, n);
      SuffixSlices(Data(s), 4, n);
    }
  }

  /** The part of ReceiveDataAsync after the header: ValidatePayloadSize on
      the decoded length, then the payload read, which rejects length 0. */
  function ReceivePayload(s: Stream, n: int32): (r: Step<Bytes>)
    ensures !(0 < n <= MaxPayloadSize) ==> r == Step(Err(ArgumentOutOfRange), s)
    ensures 0 < n <= MaxPayloadSize && n <= |Data(s)| ==>
              r.outcome == Ok(Data(s)[..n]) && Data(r.rest) == Data(s)[n..]
    ensures 0 < n <= MaxPayloadSize && |Data(s)| < n ==>
              r.outcome == Err(ConnectionClosed) && Data(r.rest) == []
    ensures r.outcome.Ok? ==> |r.outcome.value| == n as int
  {
    match ValidatePayloadSize(n)
    case Err(e) => Step(Err(e), s)
    case Ok(_) => ReadExactly(s, n)
  }

  /** Cutting a concatenation inside its second part. */
  lemma Split(a: Bytes, b: Bytes, k: nat)
    requires |a| <= k <= |a| + |b|
    ensures (a + b)[..k] == a + b[..k - |a|]
    ensures (a + b)[k..] == b[k - |a|..]
  {
  }

  lemma SuffixSlices(d: Bytes, k: nat, n: int)
    requires k <= |d|
    ensures 0 <= n && k + n <= |d| ==> d[k..][..n] == d[k..k + n] && d[k..][n..] == d[k + n..]
  {
  }

  /** ReceiveDataAsync as written, with ReadBytes reading into offset 0. */
  function ReceiveDataAsWritten(s: Stream): (r: Step<Bytes>)
    ensures |Data(s)| < 4 ==> r.outcome == Err(ConnectionClosed)
    ensures r.outcome.Ok? ==> 1 <= |r.outcome.value| <= MaxPayloadSize
  {
    var h := ReadBytesAsWritten(s, Zeros(4), 4);
    match h.outcome
    case Err(e) => Step(Err(e), h.rest)
    case Ok(header) => ReceivePayloadAsWritten(h.rest, ToInt32(header.buffer))
  }

  /** The part of ReceiveDataAsync after the header, as written. */
  function ReceivePayloadAsWritten(s: Stream, n: int32): (r: Step<Bytes>)
    ensures !(0 < n <= MaxPayloadSize) ==> r == Step(Err(ArgumentOutOfRange), s)
    ensures 0 < n <= MaxPayloadSize ==> (r.outcome.Ok? <==> n <= |Data(s)|)
    ensures r.outcome.Ok? ==> |r.outcome.value| == n as int
  {
    match ValidatePayloadSize(n)
    case Err(e) => Step(Err(e), s)
    case Ok(_) =>
      var p := ReadBytesAsWritten(s, Zeros(n), n);
      match p.outcome
      case Err(e) => Step(Err(e), p.rest)
      case Ok(payload) => Step(Ok(payload.buffer), p.rest)
  }
}

=== FILE: types.dfy ===
/** Shared vocabulary of the transport model: bytes, 32-bit integers, the
    exceptions the C# code throws, a failure-compatible Result, and byte-buffer
    concatenation. */
module Types {

  const Int32Min: int := -0x8000_0000
  const Int32Max: int := 0x7FFF_FFFF

  /** An unsigned 8-bit value, as in a C# byte[]. */
  type byte = b: int | 0 <= b < 0x100

  type Bytes = seq<byte>

  /** A C# int. */
  type int32 = x: int | Int32Min <= x <= Int32Max

  /** The exceptions the modelled code throws, one constructor per .NET type. */
  datatype Error =
    | ArgumentNull          // ArgumentNullException
    | ArgumentOutOfRange    // ArgumentOutOfRangeException
    | Argument              // ArgumentException
    | Overflow              // OverflowException from checked int arithmetic
    | ConnectionClosed      // IOException: the stream ended before the expected bytes arrived
    | Timeout               // TimeoutException
    | Socket                // SocketException
    | StreamFault           // whatever the underlying stream's write throws
    | InvalidOperation(failure: Failure)

  /** Why a Client operation threw InvalidOperationException, with the wrapped cause. */
  datatype Failure =
    | NotConnected
    | StreamNotInitialized
    | ConnectFailed(cause: Error)
    | SendFailed(cause: Error)

  datatype Option<+T> = None | Some(value: T)

  datatype Result<+T> = Ok(value: T) | Err(error: Error)

  /** In-order concatenation of byte buffers. */
  function Concat(parts: seq<Bytes>): Bytes
  {
    if parts == [] then [] else Concat(parts[..|parts| - 1]) + parts[|parts| - 1]
  }

  /** Sum of the buffer lengths. */
  function SumLengths(parts: seq<Bytes>): nat
  {
    if parts == [] then 0 else SumLengths(parts[..|parts| - 1]) + |parts[|parts| - 1]|
  }

  /** A freshly allocated C# byte array of length n: all zero. */
  function Zeros(n: nat): (z: Bytes)
    ensures |z| == n
    ensures forall i :: 0 <= i < n ==> z[i] == 0
  {
    seq(n, _ => 0)
  }

  lemma {:induction false} ConcatLength(parts: seq<Bytes>)
    ensures |Concat(parts)| == SumLengths(parts)
  {
    if parts != [] {
      ConcatLength(parts[..|parts| - 1]);
    }
  }

  /** Concat distributes over splitting the list of parts. */
  lemma {:induction false} ConcatAppend(a: seq<Bytes>, b: seq<Bytes>)
    ensures Concat(a + b) == Concat(a) + Concat(b)
    ensures SumLengths(a + b) == SumLengths(a) + SumLengths(b)
    decreases |b|
  {
    if b == [] {
      assert a + b == a;
    } else {
      var b' := b[..|b| - 1];
      assert (a + b)[..|a + b| - 1] == a + b';
      ConcatAppend(a, b');
    }
  }

  /** Part i of a concatenation starts at the sum of the lengths before it. */
  lemma ConcatAt(parts: seq<Bytes>, i: nat, j: nat)
    requires i < |parts| && j < |parts[i]|
    ensures SumLengths(parts[..i]) + j < |Concat(parts)|
    ensures Concat(parts)[SumLengths(parts[..i]) + j] == parts[i][j]
  {
    assert parts == parts[..i] + [parts[i]] + parts[i + 1..];
    ConcatAppend(parts[..i] + [parts[i]], parts[i + 1..]);
    ConcatAppend(parts[..i], [parts[i]]);
    assert Concat([parts[i]]) == parts[i] by {
      var one: seq<Bytes> := [parts[i]];
      assert one[..0] == [];
    }
    ConcatLength(parts[..i]);
  }
}

=== FILE: utf8.dfy ===
/** Encoding.UTF8 on .NET strings. A Dafny char is a Unicode scalar value; a
    .NET string is a sequence of UTF-16 code units, so its Length counts a
    scalar above U+FFFF twice (a surrogate pair). */
module Utf8 {
  import opened Types

  predicate IsAscii(c: char)
  {
    c as int < 0x80
  }

  /** The number of UTF-16 code units (C# chars) the scalar occupies. */
  function Utf16Units(c: char): nat
  {
    if c as int < 0x1_0000 then 1 else 2
  }

  /** string.Length of a .NET string holding these scalars. */
  function Utf16Length(s: string): (n: nat)
    ensures |s| <= n <= 2 * |s|
  {
    if s == [] then 0 else Utf16Units(s[0]) + Utf16Length(s[1..])
  }

  /** The UTF-8 encoding of one scalar value (RFC 3629, section 3). */
  function EncodeChar(c: char): (r: Bytes)
    ensures 1 <= |r| <= 4
    ensures |r| == 1 <==> IsAscii(c)
    ensures Utf16Units(c) <= |r|
    ensures Utf16Units(c) == |r| <==> IsAscii(c)
  {
    var cp := c as int;
    if cp < 0x80 then [cp]
    else if cp < 0x800 then [0xC0 + cp / 0x40, 0x80 + cp % 0x40]
    else if cp < 0x1_0000 then [0xE0 + cp / 0x1000, 0x80 + cp / 0x40 % 0x40, 0x80 + cp % 0x40]
    else [0xF0 + cp / 0x4_0000, 0x80 + cp / 0x1000 % 0x40, 0x80 + cp / 0x40 % 0x40, 0x80 + cp % 0x40]
  }

  /** Encoding.UTF8.GetBytes. */
  function Encode(s: string): (r: Bytes)
    ensures |s| <= |r| <= 4 * |s|
  {
    if s == [] then [] else EncodeChar(s[0]) + Encode(s[1..])
  }

  predicate IsContinuation(b: byte)
  {
    0x80 <= b < 0xC0
  }

  /** Decodes the well-formed UTF-8 sequence at the front of b, giving the
      scalar and the number of bytes it took; None when b does not start with one. */
  function DecodeFirst(b: Bytes): (r: Option<(char, nat)>)
    ensures r.Some? ==> 1 <= r.value.1 <= |b| && r.value.1 <= 4
  {
    if |b| == 0 then None
    else if b[0] < 0x80 then Some((b[0] as char, 1))
    else if 0xC0 <= b[0] < 0xE0 then
      if |b| < 2 || !IsContinuation(b[1]) then None
      else
        var cp := (b[0] as int - 0xC0) * 0x40 + (b[1] as int - 0x80);
        if cp < 0x80 then None else Some((cp as char, 2))
    else if 0xE0 <= b[0] < 0xF0 then
      if |b| < 3 || !IsContinuation(b[1]) || !IsContinuation(b[2]) then None
      else
        var cp := (b[0] as int - 0xE0) * 0x1000 + (b[1] as int - 0x80) * 0x40 + (b[2] as int - 0x80);
        if cp < 0x800 || 0xD800 <= cp < 0xE000 then None else Some((cp as char, 3))
    else if 0xF0 <= b[0] < 0xF8 then
      if |b| < 4 || !IsContinuation(b[1]) || !IsContinuation(b[2]) || !IsContinuation(b[3]) then None
      else
        var cp := (b[0] as int - 0xF0) * 0x4_0000 + (b[1] as int - 0x80) * 0x1000 + (b[2] as int - 0x80) * 0x40 + (b[3] as int - 0x80);
        if cp < 0x1_0000 || cp >= 0x11_0000 then None else Some((cp as char, 4))
    else None
  }

  /** Decoding of a well-formed UTF-8 byte sequence; None on malformed input. */
  function Decode(b: Bytes): (r: Option<string>)
    ensures r.Some? ==> |r.value| <= |b|
    ensures b == [] ==> r == Some([])
    decreases |b|
  {
    if b == [] then Some([])
    else match DecodeFirst(b)
      case None => None
      case Some((c, n)) =>
        match Decode(b[n..])
        case None => None
        case Some(rest) => Some([c] + rest)
  }

  /** cp split into 6-bit groups below a leading group recombines to cp. */
  lemma SixBitGroups(cp: nat)
    ensures cp / 0x40 * 0x40 + cp % 0x40 == cp
    ensures cp / 0x1000 * 0x1000 + cp / 0x40 % 0x40 * 0x40 + cp % 0x40 == cp
    ensures cp / 0x4_0000 * 0x4_0000 + cp / 0x1000 % 0x40 * 0x1000 + cp / 0x40 % 0x40 * 0x40 + cp % 0x40 == cp
  {
    var q1 := cp / 0x40;
    var q2 := q1 / 0x40;
    var q3 := q2 / 0x40;
    assert cp == q1 * 0x40 + cp % 0x40;
    assert q1 == q2 * 0x40 + q1 % 0x40;
    assert q2 == q3 * 0x40 + q2 % 0x40;
    assert q2 == cp / 0x1000;
    assert q3 == cp / 0x4_0000;
  }

  lemma DecodeFirstEncodeChar(c: char, rest: Bytes)
    ensures DecodeFirst(EncodeChar(c) + rest) == Some((c, |EncodeChar(c)|))
  {
    var cp := c as int;
    if cp < 0x80 {
      assert (EncodeChar(c) + rest)[0] == cp;
    } else if cp < 0x800 {
      DecodeTwoBytes(c, rest);
    } else if cp < 0x1_0000 {
      DecodeThreeBytes(c, rest);
    } else {
      DecodeFourBytes(c, rest);
    }
  }

  lemma DecodeTwoBytes(c: char, rest: Bytes)
    requires 0x80 <= c as int < 0x800
    ensures DecodeFirst(EncodeChar(c) + rest) == Some((c, 2))
  {
    var cp := c as int;
    var b := EncodeChar(c) + rest;
    SixBitGroups(cp);
    assert b[0] as int - 0xC0 == cp / 0x40;
    assert b[1] as int - 0x80 == cp % 0x40;
  }

  lemma DecodeThreeBytes(c: char, rest: Bytes)
    requires 0x800 <= c as int < 0x1_0000
    ensures DecodeFirst(EncodeChar(c) + rest) == Some((c, 3))
  {
    var cp := c as int;
    var b := EncodeChar(c) + rest;
    SixBitGroups(cp);
    assert b[0] as int - 0xE0 == cp / 0x1000;
    assert b[1] as int - 0x80 == cp / 0x40 % 0x40;
    assert b[2] as int - 0x80 == cp % 0x40;
  }

  lemma DecodeFourBytes(c: char, rest: Bytes)
    requires 0x1_0000 <= c as int
    ensures DecodeFirst(EncodeChar(c) + rest) == Some((c, 4))
  {
    var cp := c as int;
    var b := EncodeChar(c) + rest;
    SixBitGroups(cp);
    assert b[0] as int - 0xF0 == cp / 0x4_0000;
    assert b[1] as int - 0x80 == cp / 0x1000 % 0x40;
    assert b[2] as int - 0x80 == cp / 0x40 % 0x40;
    assert b[3] as int - 0x80 == cp % 0x40;
  }

  /** Splitting q * 2^k + r with r < 2^k back into q and r, for the 6-, 12-
      and 18-bit groups of a scalar. */
  lemma SplitSixBits(q: int, r: int)
    requires 0 <= r < 0x40
    ensures (q * 0x40 + r) / 0x40 == q && (q * 0x40 + r) % 0x40 == r
  {
  }

  lemma SplitTwelveBits(q: int, r: int)
    requires 0 <= r < 0x1000
    ensures (q * 0x1000 + r) / 0x1000 == q
  {
  }

  lemma SplitEighteenBits(q: int, r: int)
    requires 0 <= r < 0x4_0000
    ensures (q * 0x4_0000 + r) / 0x4_0000 == q
  {
  }

  /** The scalar at the front of well-formed UTF-8 encodes to exactly the
      bytes it was decoded from: the decoder accepts no overlong form and no
      surrogate. */
  lemma EncodeCharDecodeFirst(b: Bytes)
    requires DecodeFirst(b).Some?
    ensures EncodeChar(DecodeFirst(b).value.0) == b[..DecodeFirst(b).value.1]
  {
    if b[0] < 0x80 {
    } else if b[0] < 0xE0 {
      EncodeTwoBytes(b);
    } else if b[0] < 0xF0 {
      EncodeThreeBytes(b);
    } else {
      EncodeFourBytes(b);
    }
  }

  lemma EncodeTwoBytes(b: Bytes)
    requires DecodeFirst(b).Some? && 0x80 <= b[0] < 0xE0
    ensures EncodeChar(DecodeFirst(b).value.0) == b[..DecodeFirst(b).value.1]
  {
    var x, y: int := b[0] as int - 0xC0, b[1] as int - 0x80;
    SplitSixBits(x, y);
  }

  lemma EncodeThreeBytes(b: Bytes)
    requires DecodeFirst(b).Some? && 0xE0 <= b[0] < 0xF0
    ensures EncodeChar(DecodeFirst(b).value.0) == b[..DecodeFirst(b).value.1]
  {
    var x, y, z: int := b[0] as int - 0xE0, b[1] as int - 0x80, b[2] as int - 0x80;
    var cp := x * 0x1000 + y * 0x40 + z;
    SplitTwelveBits(x, y * 0x40 + z);
    SplitSixBits(x * 0x40 + y, z);
    SplitSixBits(x, y);
  }

  lemma EncodeFourBytes(b: Bytes)
    requires DecodeFirst(b).Some? && 0xF0 <= b[0]
    ensures EncodeChar(DecodeFirst(b).value.0) == b[..DecodeFirst(b).value.1]
  {
    var w, x, y, z: int := b[0] as int - 0xF0, b[1] as int - 0x80, b[2] as int - 0x80, b[3] as int - 0x80;
    var cp := w * 0x4_0000 + x * 0x1000 + y * 0x40 + z;
    SplitEighteenBits(w, x * 0x1000 + y * 0x40 + z);
    SplitTwelveBits(w * 0x40 + x, y * 0x40 + z);
    SplitSixBits(w, x);
    SplitSixBits(w * 0x1000 + x * 0x40 + y, z);
    SplitSixBits(w * 0x40 + x, y);
  }

  /** Whatever Decode accepts is the UTF-8 encoding of what it returns:
      GetBytes(GetString(b)) == b on well-formed input. */
  lemma {:induction false} EncodeDecode(b: Bytes)
    requires Decode(b).Some?
    ensures Encode(Decode(b).value) == b
    decreases |b|
  {
    if b != [] {
      var n := DecodeStep(b);
      EncodeDecode(b[n..]);
      assert b == b[..n] + b[n..];
    }
  }

  /** One step of a successful Decode: the first scalar, which encodes to the
      first n bytes, then the decoding of the bytes after it. */
  lemma DecodeStep(b: Bytes) returns (n: nat)
    requires b != [] && Decode(b).Some?
    ensures 1 <= n <= |b| && Decode(b[n..]).Some?
    ensures Encode(Decode(b).value) == b[..n] + Encode(Decode(b[n..]).value)
  {
    var (c, k) := DecodeFirst(b).value;
    n := k;
    EncodeCharDecodeFirst(b);
    var s := Decode(b).value;
    assert s == [c] + Decode(b[n..]).value;
    assert s[1..] == Decode(b[n..]).value;
  }

  /** UTF-8 decoding inverts encoding: GetString(GetBytes(s)) == s. */
  lemma {:induction false} DecodeEncode(s: string)
    ensures Decode(Encode(s)) == Some(s)
  {
    if s != [] {
      var head := EncodeChar(s[0]);
      DecodeFirstEncodeChar(s[0], Encode(s[1..]));
      assert Encode(s)[|head|..] == Encode(s[1..]);
      DecodeEncode(s[1..]);
      assert [s[0]] + s[1..] == s;
    }
  }

  /** Every scalar takes at least one UTF-16 unit and at least as many UTF-8
      bytes as UTF-16 units; so a non-empty string has a non-empty encoding and
      its Length never exceeds its UTF-8 byte count. */
  lemma {:induction false} EncodeLengthBounds(s: string)
    ensures |s| <= Utf16Length(s) <= |Encode(s)| <= 4 * |s|
  {
    if s != [] {
      EncodeLengthBounds(s[1..]);
    }
  }

  /** string.Length equals the UTF-8 byte count exactly when every character is ASCII. */
  lemma {:induction false} Utf16LengthIsByteCountIffAscii(s: string)
    ensures Utf16Length(s) == |Encode(s)| <==> forall i :: 0 <= i < |s| ==> IsAscii(s[i])
  {
    if s != [] {
      Utf16LengthIsByteCountIffAscii(s[1..]);
      EncodeLengthBounds(s[1..]);
      if forall i :: 0 <= i < |s| ==> IsAscii(s[i]) {
        assert forall i :: 0 <= i < |s[1..]| ==> IsAscii(s[1..][i]) by {
          forall i | 0 <= i < |s[1..]| ensures IsAscii(s[1..][i]) {
            assert s[1..][i] == s[i + 1];
          }
        }
      } else {
        var k :| 0 <= k < |s| && !IsAscii(s[k]);
        if k > 0 {
          assert s[1..][k - 1] == s[k];
        }
      }
    }
  }

  /** An ASCII string encodes byte for byte. */
  lemma {:induction false} EncodeAscii(s: string)
    requires forall i :: 0 <= i < |s| ==> IsAscii(s[i])
    ensures |Encode(s)| == |s| == Utf16Length(s)
    ensures forall i :: 0 <= i < |s| ==> Encode(s)[i] == s[i] as int
  {
    if s != [] {
      assert forall i :: 0 <= i < |s[1..]| ==> IsAscii(s[1..][i]) by {
        forall i | 0 <= i < |s[1..]| ensures IsAscii(s[1..][i]) {
          assert s[1..][i] == s[i + 1];
        }
      }
      EncodeAscii(s[1..]);
      forall i | 1 <= i < |s| ensures Encode(s)[i] == s[i] as int {
        assert Encode(s)[i] == Encode(s[1..])[i - 1];
        assert s[1..][i - 1] == s[i];
      }
    }
  }

  /** "é" (U+00E9): one UTF-16 unit, two UTF-8 bytes. */
  lemma NonAsciiExample()
    ensures Encode("é") == [0xC3, 0xA9]
    ensures Utf16Length("é") == 1
  {
  }
}
